=== FILE: README.md ===
# Expense Tracker — a Dafny model of its month ledger

This project models the core of a small expense tracker. The model has four parts:

- **Express backend (`backend/server.js`).** Month-scoped categories and budgets in a MongoDB store, and the expenses recorded against them. Every handler is modelled:
  - `GET /summary` and `GET /expenses`, the two month views;
  - `POST`/`PUT`/`DELETE /categories`;
  - `POST`/`DELETE /expenses`;
  - the `getDateRange` helper that turns the `month`/`year` query into a half-open window of dates.
- **Category schema (`backend/models/category.model.js`).** Its required paths, its defaults and the unique index on `(name, month, year, userId)`.
- **Account routes (`backend/auth.js`).** Register and login. The password hash, the hash comparison and the token signing are passed in as functions. The one fact assumed of them is that a password matches its own hash.
- **Browser dashboard (`frontend/script.js`), pure decisions only.** Which summary row is the budget and which rows are expense categories. The overview figures. Whether "set budget" sends a `PUT` or a `POST`. The checks the category, edit and expense forms make before sending anything.

Each handler is a pure function from a store and a request to a reply and a new store:

- a reply is an HTTP status plus either data, a `message` or an `error`;
- stores are immutable values;
- identifiers are natural numbers;
- a path parameter is either a well-formed identifier or a malformed one (`Mongo.IdArg`);
- money is an integer.

The category handler never supplies `userId`. `POST /categories` builds its document from `name`, `limit`, `month`, `year` and `isBudget` only, but the schema marks `userId` as required. So every category creation that passes the handler's own duplicate check fails Mongoose validation with 400, and the store is never changed. The model keeps this as the code has it:

- `Ledger.CreateCategory` proves the store unchanged on every input;
- `Client.SetBudgetWithoutBudgetRowRejected` shows the dashboard's first "set budget" of a month being refused.

The generic save, `Ledger.Persist`, does have a success path, with the unique index enforced. The model does not invent per-user scoping: no query filters on the user.

Modules, in dependency order:

| file | module | what it holds |
|---|---|---|
| wrappers.dfy | `Wrappers` | `Option`, `Result` |
| mongo.dfy | `Mongo` | object identifiers, the path-parameter cast |
| http.dfy | `Http` | replies |
| jstext.dfy | `JsText` | `parseInt`, `trim`, the decimal text of a number |
| calendar.dfy | `Calendar` | dates, `new Date(y, m, 1)`, `getDateRange` |
| schema.dfy | `CategorySchema` | the category schema, validation, the unique index |
| ledger.dfy | `Ledger` | the store and the category/expense write handlers |
| summary.dfy | `Summary` | `GET /summary` and how it reacts to the writes |
| listing.dfy | `Listing` | `GET /expenses` and its newest-first order |
| auth.dfy | `Auth` | register and login |
| client.dfy | `Client` | the dashboard's decisions |

## Model

| member | source | states |
|---|---|---|
| JsText.SpacesEnd | backend/server.js:26 | the scan stops at the first position that is not white space, and every position it passed is white space |
| JsText.TrimStart | frontend/script.js:259 | the result is a suffix of the text, every dropped character is white space, and it does not start with white space |
| JsText.TrimEnd | frontend/script.js:259 | the result is a prefix of the text, every dropped character is white space, and it does not end with white space |
| JsText.Trim | frontend/script.js:259 | the result is empty exactly when the text is all white space; otherwise it starts and ends with a non-space character and is a slice of the text with only white space on either side |
| JsText.AllSpaceTrimsToEmpty | frontend/script.js:259 | trimming both ends leaves nothing exactly when the text is all white space |
| JsText.DigitsEnd | backend/server.js:26 | the digit scan stops at the first position that is not a digit of the radix, and every position it passed is one |
| JsText.SignEnd | backend/server.js:26 | at most one `-` or `+` is taken, and one always is when it stands first |
| JsText.ReadDigits | backend/server.js:26 | digits are read exactly when a digit of the radix stands at the read position; otherwise `NaN` |
| JsText.ParseIntText | backend/server.js:26-28 | text with no decimal digit at all parses to `NaN` |
| JsText.UndefinedIsNaN | backend/server.js:26-28 | the text "undefined", which JavaScript parses in place of a missing value, has no digit and parses to `NaN` |
| JsText.ParseInt | backend/server.js:26-28 | a missing query value (`undefined`) parses to `NaN`, and so does any text without a decimal digit |
| JsText.ShowNat | frontend/script.js:133 | a natural number is written as a non-empty run of decimal digits with no leading zero |
| JsText.Show | frontend/script.js:133 | an integer is written as decimal digits, with a leading minus sign for negatives |
| JsText.ValueOfShowNat | frontend/script.js:133 | the digits of a natural number evaluate back to it |
| JsText.ReadShowNat | backend/server.js:26 | a number's digits, followed by a non-digit or the end of the text, read back as that number |
| JsText.ShowLayout | frontend/script.js:133 | a written number has no leading white space or plus sign; a minus sign stands first exactly for negatives, then the digits of the magnitude |
| JsText.ParseShowRoundTrip | backend/server.js:26-27 | `parseInt` reads back any integer the dashboard wrote into a query string, when the text after it starts with neither a digit nor `x`/`X` (after a leading `0`, an `x` would start a hexadecimal prefix) |
| JsText.ParseShow | frontend/script.js:130-133 | the month and year the dashboard puts in a URL come back unchanged from the server's `parseInt` |
| JsText.HexPrefixRead | backend/server.js:26 | `parseInt` with no radix reads the hexadecimal digits after a `0x` or `0X` prefix, up to the first non-hexadecimal character, as a base-16 number |
| Calendar.FirstOfMonth | backend/server.js:30 | `new Date(y, m, 1)` is always a proper first of a month; for a month in 0..11 it is that month of the year, with years 0..99 read as 1900..1999 |
| Calendar.FirstOfFollowingMonth | backend/server.js:30-31 | the end of the window is the first of the month after its start, including the December-to-January rollover and out-of-range months |
| Calendar.MonthWindow | backend/server.js:30-31 | the window from a first of the month to the first of the next holds exactly the proper dates of that month |
| Calendar.DateRange | backend/server.js:25-34 | fails with "Invalid month or year" exactly when either value parses to `NaN`; otherwise the window starts on the first of the requested month, ends on the first of the next, and holds exactly the proper dates of that month |
| CategorySchema.FailingPaths | backend/models/category.model.js:4-10 | each required path is reported exactly when it is missing or invalid (an empty name, a month outside 0..11); `limit` and `isBudget` are never reported; nothing is reported exactly for an admissible document |
| CategorySchema.Validate | backend/models/category.model.js:3-11 | validation succeeds exactly for admissible documents; a stored category copies the given paths, takes `limit` 0 and `isBudget` false by default, and is a budget exactly when `isBudget` was true |
| CategorySchema.Insert | backend/models/category.model.js:14 | an admissible document is stored exactly when no stored category has its (name, month, year, userId) key; the document is appended, and the unique index is preserved |
| CategorySchema.PathIf | backend/models/category.model.js:4-10 | a path is reported exactly when its check failed |
| CategorySchema.SecondBudgetRowRejected | backend/models/category.model.js:14 | a second budget row for the same name, month, year and user is rejected as a duplicate key, even though budget rows skip the handler's duplicate check |
| Ledger.InWindowOf | backend/server.js:44 | the expense query keeps exactly the stored expenses dated inside the window |
| Ledger.InWindowOfAppend | backend/server.js:44 | the date filter keeps store order |
| Ledger.DraftOf | backend/server.js:76 | the built document carries the request's fields, `isBudget` as the flag or false, and never a `userId`, so it is never admissible |
| Ledger.Persist | backend/server.js:77 | a save succeeds exactly for an admissible document whose key is new; it appends that category under the next identifier and keeps the store well formed |
| Ledger.CreateCategory | backend/server.js:66-82 | 409 "Category already exists for this month/year." exactly when the flag is not truthy and a non-budget category agrees with the request on each of name, month and year that the request carries (a missing one constrains nothing); otherwise 400 with `userId` among the failing paths; the store never changes |
| Ledger.Apply | backend/server.js:86-90 | an update changes only `name` and `limit`, and only the keys the body carries |
| Ledger.UpdateCategory | backend/server.js:84-101 | 400 for a malformed id; 404 "Category not found in DB." exactly when no category has the id; 400 only when the updated key collides with another category; on 200 the reply is the updated category and only that category changes; well-formedness is kept |
| Ledger.DeleteCategory | backend/server.js:104-122 | 404 "Category not found." exactly when no category has the id; on 200 a budget category keeps its place with limit 0, and any other category is removed; expenses are untouched and well-formedness is kept |
| Ledger.IndexOf | backend/server.js:106 | `findById` finds a document exactly when one has the id, and finds the first such |
| Ledger.FindsOnlyOccurrence | backend/server.js:106 | among distinct ids, the lookup finds each id at its own position |
| Ledger.RemoveAt | backend/server.js:117 | removing one document keeps every other in its order |
| Ledger.RemoveAtKeepsIds | backend/server.js:117 | removing a document keeps identifiers distinct and below the counter |
| Ledger.RemoveAtKeepsUniqueIndex | backend/models/category.model.js:14 | removing a category keeps the unique (name, month, year, userId) index |
| Ledger.RemoveCategoryKeepsWellFormed | backend/server.js:117 | `findByIdAndDelete` of a category keeps the store well formed |
| Ledger.RemoveExpenseKeepsWellFormed | backend/server.js:152 | `findByIdAndDelete` of an expense keeps the store well formed |
| Ledger.ReplaceCategoryKeepsWellFormed | backend/server.js:88-92 | replacing a category by one with the same id and a key no other category has keeps the store well formed |
| Ledger.OnlyPositionWithId | backend/server.js:88 | in a well-formed store a category id names exactly one position |
| Ledger.ResetCategoryKeepsWellFormed | backend/server.js:113 | resetting a limit to 0 keeps the store well formed, since the key is untouched |
| Ledger.ResetBudgetEffect | backend/server.js:111-114 | deleting a stored budget category by its id succeeds and sets exactly that category's limit to 0, everything else unchanged |
| Ledger.DeleteCategoryEffect | backend/server.js:117-118 | deleting a stored ordinary category by its id succeeds, removes exactly that category, and leaves no category with its id |
| Ledger.CreateExpense | backend/server.js:138-148 | 200 "Expense added"; exactly one expense is appended, with the request's fields and a fresh id; categories are untouched |
| Ledger.DeleteExpense | backend/server.js:150-157 | 400 for a malformed id; otherwise 200 "Expense deleted" whether or not anything matched; only the expense with that id disappears, and an unknown id leaves the store unchanged |
| Summary.ForMonth | backend/server.js:43 | the month query keeps exactly the categories of that month and year |
| Summary.ForMonthAppend | backend/server.js:43 | the month query keeps store order |
| Summary.Labelled | backend/server.js:47 | the label filter keeps exactly the expenses whose category equals the name |
| Summary.LabelledAppend | backend/server.js:47 | the label filter keeps order |
| Summary.TotalAppend | backend/server.js:48 | the amount sum is additive over concatenation |
| Summary.Rows | backend/server.js:45-58 | one row per category, in category order: each row carries its category's id, name, limit and budget flag, spends the total of the fetched expenses labelled with that name, and has limit minus spent remaining |
| Summary.GetSummary | backend/server.js:38-64 | 400 "Invalid month or year" exactly when a value does not parse; otherwise one row per category of the month, in store order, with its spent over the month's expenses and remaining = limit − spent |
| Summary.SpentAfterAppend | backend/server.js:44-48 | one more expense adds its amount to a name's spent exactly when it is dated in the window and carries that name |
| Summary.SpentWithoutMatches | backend/server.js:46-56 | a category no in-window expense is labelled with has spent 0 |
| Summary.SpentAppend | backend/server.js:47-48 | spent is additive over concatenation of the fetched expenses |
| Summary.SpentWithout | backend/server.js:47-48 | taking one expense out of the fetched ones takes exactly its contribution out of spent |
| Summary.RemoveMatchingHeads | backend/server.js:47-48 | two permutations of each other stay permutations after one copy of the same expense is removed from each |
| Summary.SpentPermutation | backend/server.js:46-48 | spent depends only on which expenses were fetched, not on their order |
| Summary.ExpenseAddedToSummary | backend/server.js:138-148 | after `POST /expenses` every summary row keeps its category, and its spent grows by the amount exactly when the expense is in the month and carries the row's name |
| Summary.DeletedCategoryLeavesSummary | backend/server.js:117-118 | after deleting an ordinary category, no summary of any month shows its id |
| Summary.StoredPosition | backend/server.js:43 | every category the month query returns is a stored category |
| Summary.PositionInMonth | backend/server.js:43 | every stored category is among those the query for its own month returns |
| Summary.RowAt | backend/server.js:45-57 | the summary's i-th row carries the id, name, limit and flag of the month's i-th category, with remaining = limit − spent |
| Summary.CategoryHasRow | backend/server.js:43-58 | every category of the requested month appears in the summary with its own fields |
| Summary.ResetBudgetStaysInSummary | backend/server.js:111-114 | after "deleting" a budget category, its month's summary still shows it, with limit 0 and remaining equal to minus its spent |
| Listing.HeadStaysNewest | backend/server.js:131 | keeping the newest expense in front preserves newest-first order |
| Listing.InsertNewestFirst | backend/server.js:131 | inserting into a newest-first list keeps it newest first and adds exactly that expense |
| Listing.SortNewestFirst | backend/server.js:131 | the sort orders by date, newest first, and is a permutation of its input |
| Listing.ListExpenses | backend/server.js:126-136 | 400 "Invalid month or year" exactly when a value does not parse; otherwise exactly the month's expenses, each once, newest first |
| Listing.ListingAgreesWithSummary | backend/server.js:131 | a summary row's spent equals the total of the listed expenses carrying its name |
| Auth.FindByEmail | backend/auth.js:20 | the lookup finds a user exactly when one has that email, and the one it finds has it |
| Auth.Register | backend/auth.js:12-42 | 400 when email or password is missing or the password is shorter than 6; 409 when the email is taken; otherwise 201, one user appended with the hashed password, and a token signed for the new id; email uniqueness is kept |
| Auth.Login | backend/auth.js:45-75 | 400 exactly when email or password is missing; 401 "Invalid credentials." exactly when no user has the email or the password does not match; otherwise 200, and on 200 the token is signed for a user with that email whose hash matches |
| Auth.AddUserKeepsInvariants | backend/auth.js:26-30 | appending an account with a new email under the next id keeps emails unique and ids below the counter |
| Auth.LastMatchFound | backend/auth.js:53 | a newly appended account is found by its email when no earlier account has it |
| Auth.RegisterThenLogin | backend/auth.js:58-63 | a successful registration can log in at once with the same email and password, receiving a token for the new id |
| Client.FirstBudget | frontend/script.js:135 | no row is found exactly when no row is a budget; otherwise the first budget row |
| Client.BudgetCard | frontend/script.js:135 | the budget card shows the first budget row, or limit 0 and spent 0 with no id when there is none |
| Client.ExpenseRows | frontend/script.js:136 | keeps exactly the non-budget rows |
| Client.ExpenseRowsAppend | frontend/script.js:136 | the expense-row filter keeps order |
| Client.TotalSpentAppend | frontend/script.js:157 | the total spent is additive over concatenation |
| Client.OverviewIgnoresBudgetRow | frontend/script.js:155-163 | a budget row never contributes to the overview's total spent, wherever it sits |
| Client.OverviewOf | frontend/script.js:155-162 | the budget shown is the budget row's limit; over expense-category rows, the total spent is the sum of their spent; remaining is budget minus spent |
| Client.ExpenseOnlySpent | frontend/script.js:157 | over rows that are all expense categories, the `reduce` sum equals the skip-budget-rows reference sum |
| Client.TotalSpentOfExpenseRows | frontend/script.js:136-157 | summing the spent of the filtered expense rows equals summing, over all rows, the spent of each non-budget row |
| Client.OverviewOfSummary | frontend/script.js:155-162 | for a month's rows, the overview's budget is the first budget row's limit, or 0 with no budget row; its spent is the spent of the non-budget rows summed; the remaining figure is budget minus spent |
| Client.OverviewSpentIgnoresBudgetRow | frontend/script.js:155-162 | inserting a budget row anywhere among the rows leaves the overview's total spent unchanged |
| Client.SetBudget | frontend/script.js:228-244 | a `PUT` to the first budget row exactly when the summary has one, with the entered amount (or 0) and the name "Total Budget"; exactly when it has none, a `POST` of a "Total Budget" budget category for the month with that amount |
| Client.CategorySubmit | frontend/script.js:259-264 | sends exactly when the name has a non-space character and the limit is a positive number; it sends the trimmed name with no `isBudget` |
| Client.EditCategory | frontend/script.js:275-289 | a cancelled prompt sends nothing; sends exactly when the name has a non-space character and the limit is a non-negative number; otherwise alerts "Invalid input for name or limit." |
| Client.ExpenseSubmit | frontend/script.js:312-319 | sends exactly when a category is chosen and the amount is a positive number; the post carries the entered date, category, amount and note |
| Client.SubmittedExpenseCounted | frontend/script.js:309-327 | an expense the form sends is stored by `POST /expenses`, and the summary of its month then counts its amount in the spent of the row carrying its label, for a year outside 0..99 (for those years `new Date(y, m, 1)` puts the month window in 1900..1999) |
| Client.SetBudgetWithoutBudgetRowRejected | frontend/script.js:237-243 | with no budget row, "set budget" is refused by the server with 400 and nothing is stored |
| Summary.RowIsStored | backend/server.js:43-57 | every summary row stands for a stored category with the same id, name and budget flag |
| Client.UpdateStoredCategory | backend/server.js:84-101 | updating a stored category is never 404; in a well-formed store a success applies the body to that category, and an update that keeps the index key always succeeds |
| Client.SetBudgetUpdatesBudgetRow | frontend/script.js:232-235 | "set budget" on an existing budget row is never 404; it sets the limit and the name "Total Budget" on a budget category; it succeeds when the row already has that name |
| Client.SetBudgetAfterSummary | frontend/script.js:231-235 | for the rows the month's summary returned, the budget update always finds its category |

## Left out

- Network, Express routing, CORS, `dotenv`, the database connection and server start-up are not modelled. Each handler is a function of the store.
- The `catch` blocks that answer 500 (auth.js) are not modelled: the models of hashing, saving and signing never fail.
- Concurrency is not modelled. The check-then-save race in `POST /categories` and in register is therefore absent.
- The expense and user schemas are not part of this model. Saving an expense or a user is taken to succeed. An expense's `date` is a `Calendar.Day`: a month from 0 to 11 and a day from 1 to 31, without checking the day against the month's length.
- Mongoose error texts are shortened to fixed strings: "Category validation failed", "E11000 duplicate key error" and "Cast to ObjectId failed".
- `Category.find({ month, year })` casts the raw query strings to numbers. The model uses the `parseInt` results instead, which agree for the plain decimal text the dashboard sends.
- In the `POST /categories` duplicate query, Mongoose drops a key whose value is `undefined`. A field missing from the request therefore constrains nothing, and the model matches that.
- `PUT /categories/:id` assumes Mongoose 6 or later, which drops `undefined` keys from an update, so a missing `limit` or `name` leaves that field as it is. The connection options at backend/server.js:12-15 date from Mongoose 5. Under Mongoose 5 without `omitUndefined`, a missing key would be stored as `null`; that is not modelled.
- JavaScript's `Date` range is not modelled. A year beyond about 275,000 either way gives an Invalid Date, and the month queries would then fail with 400. The model gives every year a window.
- Dates carry no time of day or time zone: `new Date(y, m, 1)` is local midnight, and every date comparison is by calendar day.
- Amounts, limits and `parseFloat` results are integers (whole minor units). A `NaN` from `parseFloat` is `None`. Floating-point rounding and `toFixed(2)` formatting are not modelled.
- `limit || 0` in `updateOverview` is the limit itself, because a limit is always a number.
- String lengths and characters are Unicode code points, not UTF-16 units.
- `trim` and `parseInt` skip only the Latin-1, line-separator and byte-order-mark white space. The other Unicode space separators are not listed.
- `parseInt` of numbers too large for a double, and of `Infinity`, are not modelled.
- JsText.Show: writes every integer as exact decimal digits. A JavaScript template literal switches to exponent notation from 1e21 and loses integer precision above 2^53; neither is modelled, and the months and years the dashboard offers are far below both.
- The `timestamps: true` option of the category schema (`createdAt`, `updatedAt`) and Mongoose's version key `__v` are not modelled. A stored category and the `PUT /categories/:id` reply carry only the schema's own paths and the id.
- Token expiry, the JWT secret, bcrypt salting and the success `message` texts of register and login are not modelled. A session is the token and the email.
- The DOM rendering (`renderCategoryTable`, `renderExpenseTable`, `updateCategorySelect`), `fetch`, `localStorage`, confirmation dialogs, page navigation and the logged-in check are not modelled. Month and year selections are integers already parsed.
- Request fields are assumed to have the JSON types the dashboard sends: strings for names, e-mail addresses and passwords, numbers for limits, months and years, and a boolean or nothing for `isBudget`. So a truthy non-boolean `isBudget` (such as `1` or `"yes"`), which skips the duplicate check, is not modelled. Neither is a numeric password, which passes the length check and makes the hash throw (500).
- The expense form sends its date field without checking it. The model assumes the field is filled in with a date, so an empty or malformed date (which Mongoose would reject with 400) is not modelled.
- JsText.ParseIntText: its contract states only the no-digit case. What it reads from a number's decimal text is stated by `JsText.ParseShowRoundTrip`, and from hexadecimal text by `JsText.HexPrefixRead`.
- JsText.ReadDigits: its contract states only when the result is `NaN`, not which number a digit run denotes. The value read is stated for rendered numbers by `JsText.ReadShowNat` and for hexadecimal digits by `JsText.HexPrefixRead`.

=== FILE: auth.dfy ===
/** POST /auth/register and POST /auth/login: input checks, the email conflict check, and the
    credential check, over a store of users. Hashing, comparing and token signing are library calls
    the model does not look into; they are passed in as functions. */
module Auth {
  import opened Wrappers
  import opened Mongo
  import opened Http

  /** The reply messages. */
  const WeakCredentials := "Please provide a valid email and a password of at least 6 characters."
  const EmailTaken := "A user with this email already exists."
  const MissingCredentials := "Email and password are required."
  const InvalidCredentials := "Invalid credentials."

  /** A stored account; `password` holds the hash, never the plain text. */
  datatype User = User(id: ObjectId, email: string, password: string)

  datatype UserStore = UserStore(users: seq<User>, nextId: ObjectId)

  /** The library calls: `bcrypt.hash`, `bcrypt.compare` and `jwt.sign` of `{ userId }`. */
  datatype Crypto = Crypto(
    hash: string -> string,
    compare: (string, string) -> bool,
    sign: ObjectId -> string)

  /** The one fact the model assumes of the libraries: a password matches its own hash. */
  ghost predicate Sound(c: Crypto) {
    forall p :: c.compare(p, c.hash(p))
  }

  /** The session a successful call returns: the signed token and the account's email. */
  datatype Session = Session(token: string, email: string)

  /** JavaScript truthiness of an optional string field: present and not empty. */
  predicate Given(x: Option<string>) {
    x.Some? && x.value != ""
  }

  /** Emails identify accounts: no two users share one. */
  predicate UniqueEmails(us: UserStore) {
    forall i, j :: 0 <= i < j < |us.users| ==> us.users[i].email != us.users[j].email
  }

  predicate IdsBelow(us: UserStore) {
    forall i :: 0 <= i < |us.users| ==> us.users[i].id < us.nextId
  }

  /** `User.findOne({ email })`: the first user with that email. */
  function FindByEmail(users: seq<User>, email: string): (r: Option<User>)
    ensures r.None? <==> forall u :: u in users ==> u.email != email
    ensures r.Some? ==> r.value in users && r.value.email == email
    ensures r.Some? && |users| > 0 && users[0].email == email ==> r.value == users[0]
  {
    if |users| == 0 then None
    else if users[0].email == email then Some(users[0])
    else FindByEmail(users[1..], email)
  }

  /** POST /auth/register. */
  function Register(us: UserStore, c: Crypto, email: Option<string>, password: Option<string>)
    : (r: (Reply<Session>, UserStore))
    ensures (!Given(email) || !Given(password) || |password.value| < 6) ==>
      r == (Reply(400, Message(WeakCredentials)), us)
    ensures Given(email) && Given(password) && |password.value| >= 6 && FindByEmail(us.users, email.value).Some? ==>
      r == (Reply(409, Message(EmailTaken)), us)
    ensures r.0.status == 201 <==>
      Given(email) && Given(password) && |password.value| >= 6 && FindByEmail(us.users, email.value).None?
    ensures r.0.status != 201 ==> r.1 == us
    ensures r.0.status == 201 ==>
      && r.1.users == us.users + [User(us.nextId, email.value, c.hash(password.value))]
      && r.1.nextId > us.nextId
      && r.0.body == Data(Session(c.sign(us.nextId), email.value))
    ensures UniqueEmails(us) ==> UniqueEmails(r.1)
    ensures IdsBelow(us) ==> IdsBelow(r.1)
  {
    if !Given(email) || !Given(password) || |password.value| < 6 then
      (Reply(400, Message(WeakCredentials)), us)
    else if FindByEmail(us.users, email.value).Some? then
      (Reply(409, Message(EmailTaken)), us)
    else
      var user := User(us.nextId, email.value, c.hash(password.value));
      AddUserKeepsInvariants(us, user);
      (Reply(201, Data(Session(c.sign(user.id), user.email))), UserStore(us.users + [user], us.nextId + 1))
  }

  /** Appending an account whose email is new, under the next identifier, keeps emails unique and
      identifiers below the counter. */
  lemma AddUserKeepsInvariants(us: UserStore, user: User)
    requires FindByEmail(us.users, user.email).None? && user.id == us.nextId
    ensures UniqueEmails(us) ==> UniqueEmails(UserStore(us.users + [user], us.nextId + 1))
    ensures IdsBelow(us) ==> IdsBelow(UserStore(us.users + [user], us.nextId + 1))
  {
    var users := us.users + [user];
    forall i | 0 <= i < |us.users| ensures users[i].email != user.email {
      assert us.users[i] in us.users;
    }
  }

  /** POST /auth/login. An unknown email and a wrong password get the same 401 reply. */
  function Login(us: UserStore, c: Crypto, email: Option<string>, password: Option<string>): (r: Reply<Session>)
    ensures !Given(email) || !Given(password) ==> r == Reply(400, Message(MissingCredentials))
    ensures r.status == 400 <==> !Given(email) || !Given(password)
    ensures r.status == 200 || r.status == 400 || r.status == 401
    ensures r.status == 401 <==>
      Given(email) && Given(password) &&
      var found := FindByEmail(us.users, email.value);
      found.None? || !c.compare(password.value, found.value.password)
    ensures Given(email) && Given(password) && UniqueEmails(us) ==>
      (r.status == 401 <==>
        forall u :: u in us.users && u.email == email.value ==> !c.compare(password.value, u.password))
    ensures r.status == 401 ==> r.body == Message(InvalidCredentials)
    ensures r.status == 200 ==>
      exists u :: u in us.users && u.email == email.value && c.compare(password.value, u.password)
        && r.body == Data(Session(c.sign(u.id), u.email))
  {
    if !Given(email) || !Given(password) then
      Reply(400, Message(MissingCredentials))
    else
      match FindByEmail(us.users, email.value)
      case None => Reply(401, Message(InvalidCredentials))
      case Some(user) =>
        if !c.compare(password.value, user.password) then Reply(401, Message(InvalidCredentials))
        else Reply(200, Data(Session(c.sign(user.id), user.email)))
  }

  /** A new account can log in at once: with a password that matches its own hash, register
      followed by login with the same email and password succeeds for the same account id. */
  lemma RegisterThenLogin(us: UserStore, c: Crypto, email: string, password: string)
    requires Sound(c)
    requires Register(us, c, Some(email), Some(password)).0.status == 201
    ensures
      var (reply, us') := Register(us, c, Some(email), Some(password));
      Login(us', c, Some(email), Some(password)) == Reply(200, Data(Session(c.sign(us.nextId), email)))
  {
    var us' := Register(us, c, Some(email), Some(password)).1;
    var user := User(us.nextId, email, c.hash(password));
    LastMatchFound(us.users, user);
    assert c.compare(password, c.hash(password));
  }

  /** When no earlier user has the email, the lookup finds the one appended last. */
  lemma {:induction false} LastMatchFound(users: seq<User>, user: User)
    requires forall u :: u in users ==> u.email != user.email
    ensures FindByEmail(users + [user], user.email) == Some(user)
    decreases |users|
  {
    if |users| == 0 {
      assert users + [user] == [user];
    } else {
      assert (users + [user])[1..] == users[1..] + [user];
      LastMatchFound(users[1..], user);
    }
  }
}

=== FILE: calendar.dfy ===
/** Calendar dates and the month window `getDateRange` computes for the month-scoped queries. */
module Calendar {
  import opened Wrappers
  import JsText

  /** A calendar day. `month` counts from 0 (January) to 11 (December), as JavaScript's `Date` does;
      the time of day carries no meaning in the program and is not modelled. */
  datatype Date = Date(year: int, month: int, day: int)

  /** A date whose month and day are in their usual ranges. */
  predicate Proper(d: Date) {
    0 <= d.month < 12 && 1 <= d.day <= 31
  }

  /** The date an expense carries. The model assumes the expense form's date field is filled in,
      so the date posted is a proper one; the form itself does not check it. */
  type Day = d: Date | Proper(d) witness Date(1970, 0, 1)

  /** Chronological order: year first, then month, then day. */
  predicate Before(a: Date, b: Date) {
    a.year < b.year
    || (a.year == b.year && a.month < b.month)
    || (a.year == b.year && a.month == b.month && a.day < b.day)
  }

  /** The half-open interval `[start, end)` of a date query (`$gte start`, `$lt end`). */
  datatype Window = Window(start: Date, end: Date)

  predicate InWindow(d: Date, w: Window) {
    !Before(d, w.start) && Before(d, w.end)
  }

  /** The first of the month after `d`'s month: December rolls over to January of the next year. */
  function NextMonth(d: Date): Date {
    if d.month == 11 then Date(d.year + 1, 0, 1) else Date(d.year, d.month + 1, 1)
  }

  /** JavaScript's `Date` constructor reads a year between 0 and 99 as 1900 to 1999. */
  function FullYear(y: int): int {
    if 0 <= y <= 99 then 1900 + y else y
  }

  /** `new Date(year, month, 1)`: a month outside 0..11 carries into the year, by floor division. */
  function FirstOfMonth(year: int, month: int): (d: Date)
    ensures Proper(d) && d.day == 1
    ensures 0 <= month < 12 ==> d == Date(FullYear(year), month, 1)
  {
    Date(FullYear(year) + month / 12, month % 12, 1)
  }

  lemma FirstOfFollowingMonth(year: int, month: int)
    ensures FirstOfMonth(year, month + 1) == NextMonth(FirstOfMonth(year, month))
  {
    var q, r := month / 12, month % 12;
    assert month == 12 * q + r && 0 <= r < 12;
    if r == 11 {
      assert month + 1 == 12 * (q + 1) + 0;
    } else {
      assert month + 1 == 12 * q + (r + 1);
    }
  }

  /** The window from a first of the month to the first of the next holds exactly the proper dates
      of that month. */
  lemma MonthWindow(start: Date)
    requires Proper(start) && start.day == 1
    ensures forall d :: Proper(d) ==>
      (InWindow(d, Window(start, NextMonth(start))) <==> d.year == start.year && d.month == start.month)
  {
  }

  /** The error `getDateRange` throws for a query value that is not a number. */
  const InvalidQuery := "Invalid month or year"

  /** `getDateRange(month, year)`: parse both query values with `parseInt`; if either is `NaN`
      fail with "Invalid month or year", otherwise the window from the first of that month to the
      first of the next. */
  function DateRange(month: Option<string>, year: Option<string>): (r: Result<Window, string>)
    ensures r.Failure? <==> JsText.ParseInt(month).None? || JsText.ParseInt(year).None?
    ensures r.Failure? ==> r.error == InvalidQuery
    ensures r.Success? ==>
      && Proper(r.value.start) && r.value.start.day == 1
      && r.value.end == NextMonth(r.value.start)
    ensures r.Success? ==>
      var m, y := JsText.ParseInt(month).value, JsText.ParseInt(year).value;
      0 <= m < 12 ==> r.value.start == Date(FullYear(y), m, 1)
    ensures r.Success? ==> forall d :: Proper(d) ==>
      (InWindow(d, r.value) <==> d.year == r.value.start.year && d.month == r.value.start.month)
  {
    var m := JsText.ParseInt(month);
    var y := JsText.ParseInt(year);
    if m.None? || y.None? then Failure(InvalidQuery)
    else
      var start := FirstOfMonth(y.value, m.value);
      FirstOfFollowingMonth(y.value, m.value);
      MonthWindow(start);
      Success(Window(start, FirstOfMonth(y.value, m.value + 1)))
  }
}

=== FILE: client.dfy ===
/** The dashboard's pure decisions: which summary row is the budget, the overview figures, which
    request "set budget" sends, and the checks the forms make before sending anything. */
module Client {
  import opened Wrappers
  import opened Mongo
  import opened Http
  import opened Calendar
  import opened CategorySchema
  import opened Ledger
  import opened Summary
  import JsText

  /** The name "set budget" gives the budget category, and the edit form's alert. */
  const BudgetName := "Total Budget"
  const InvalidEdit := "Invalid input for name or limit."

  /** `summary.find(c => c.isBudget)`: the first budget row, if any. */
  function FirstBudget(rows: seq<SummaryRow>): (r: Option<SummaryRow>)
    ensures r.None? <==> forall i :: 0 <= i < |rows| ==> !rows[i].isBudget
    ensures r.Some? ==>
      exists k :: 0 <= k < |rows| && rows[k] == r.value && rows[k].isBudget
        && forall j :: 0 <= j < k ==> !rows[j].isBudget
  {
    if |rows| == 0 then None
    else if rows[0].isBudget then Some(rows[0])
    else
      var r := FirstBudget(rows[1..]);
      assert r.Some? ==>
        exists k :: 1 <= k < |rows| && rows[k] == r.value && rows[k].isBudget
          && forall j :: 0 <= j < k ==> !rows[j].isBudget by {
        if r.Some? {
          var k :| 0 <= k < |rows| - 1 && rows[1..][k] == r.value && rows[1..][k].isBudget
            && forall j :: 0 <= j < k ==> !rows[1..][j].isBudget;
          assert rows[k + 1] == r.value;
          assert forall j :: 1 <= j < k + 1 ==> rows[j] == rows[1..][j - 1];
        }
      }
      r
  }

  /** The budget card's source: the budget row, or `{ limit: 0, spent: 0, _id: null }`. */
  datatype BudgetView = BudgetView(id: Option<ObjectId>, limit: int, spent: int)

  function BudgetCard(rows: seq<SummaryRow>): (b: BudgetView)
    ensures b.id.None? <==> forall i :: 0 <= i < |rows| ==> !rows[i].isBudget
    ensures b.id.None? ==> b.limit == 0 && b.spent == 0
    ensures b.id.Some? ==>
      exists k :: 0 <= k < |rows| && rows[k].isBudget
        && (forall j :: 0 <= j < k ==> !rows[j].isBudget)
        && b == BudgetView(Some(rows[k].id), rows[k].limit, rows[k].spent)
  {
    match FirstBudget(rows)
    case None => BudgetView(None, 0, 0)
    case Some(row) => BudgetView(Some(row.id), row.limit, row.spent)
  }

  /** `summary.filter(c => !c.isBudget)`: the expense categories, in summary order. */
  function ExpenseRows(rows: seq<SummaryRow>): (r: seq<SummaryRow>)
    ensures forall x :: x in r <==> x in rows && !x.isBudget
    ensures |r| <= |rows|
  {
    if |rows| == 0 then []
    else (if rows[0].isBudget then [] else [rows[0]]) + ExpenseRows(rows[1..])
  }

  lemma {:induction false} ExpenseRowsAppend(a: seq<SummaryRow>, b: seq<SummaryRow>)
    ensures ExpenseRows(a + b) == ExpenseRows(a) + ExpenseRows(b)
    decreases |a|
  {
    if |a| == 0 {
      assert a + b == b;
    } else {
      assert (a + b)[1..] == a[1..] + b;
      ExpenseRowsAppend(a[1..], b);
    }
  }

  /** `expenseCats.reduce((sum, c) => sum + c.spent, 0)`. */
  function TotalSpent(rows: seq<SummaryRow>): int {
    if |rows| == 0 then 0 else rows[0].spent + TotalSpent(rows[1..])
  }

  lemma {:induction false} TotalSpentAppend(a: seq<SummaryRow>, b: seq<SummaryRow>)
    ensures TotalSpent(a + b) == TotalSpent(a) + TotalSpent(b)
    decreases |a|
  {
    if |a| == 0 {
      assert a + b == b;
    } else {
      assert (a + b)[1..] == a[1..] + b;
      TotalSpentAppend(a[1..], b);
    }
  }

  /** The three figures of the overview card. */
  datatype Overview = Overview(totalBudget: int, totalSpent: int, remaining: int)

  /** `updateOverview`: the budget is the budget row's limit (`limit || 0`, which for an integer
      amount is the limit itself); spent sums the expense categories only. */
  function OverviewOf(budget: BudgetView, cats: seq<SummaryRow>): (o: Overview)
    ensures o.totalBudget == budget.limit
    ensures (forall i :: 0 <= i < |cats| ==> !cats[i].isBudget) ==> o.totalSpent == ExpenseCategoriesSpent(cats)
    ensures o.remaining == o.totalBudget - o.totalSpent
  {
    ExpenseOnlySpent(cats);
    var totalSpent := TotalSpent(cats);
    Overview(budget.limit, totalSpent, budget.limit - totalSpent)
  }

  /** Over rows that are all expense categories, the plain sum and the skip-budget-rows sum agree. */
  lemma {:induction false} ExpenseOnlySpent(rows: seq<SummaryRow>)
    ensures (forall i :: 0 <= i < |rows| ==> !rows[i].isBudget) ==> TotalSpent(rows) == ExpenseCategoriesSpent(rows)
    decreases |rows|
  {
    if |rows| != 0 {
      ExpenseOnlySpent(rows[1..]);
      if forall i :: 0 <= i < |rows| ==> !rows[i].isBudget {
        assert forall i :: 0 <= i < |rows| - 1 ==> rows[1..][i] == rows[i + 1];
      }
    }
  }

  /** The overview leaves the budget row out of the total spent, wherever that row sits. */
  lemma OverviewIgnoresBudgetRow(before: seq<SummaryRow>, budget: SummaryRow, after: seq<SummaryRow>)
    requires budget.isBudget
    ensures ExpenseRows(before + [budget] + after) == ExpenseRows(before + after)
  {
    ExpenseRowsAppend(before + [budget], after);
    ExpenseRowsAppend(before, [budget]);
    ExpenseRowsAppend(before, after);
    assert ExpenseRows([budget]) == [] by {
      assert [budget][1..] == [];
    }
    assert ExpenseRows(before) + [] == ExpenseRows(before);
  }

  /** The spent of a month's expense categories summed directly, skipping budget rows as it goes:
      an independent reference for the overview's filter-then-sum. */
  function ExpenseCategoriesSpent(rows: seq<SummaryRow>): int {
    if |rows| == 0 then 0
    else (if rows[0].isBudget then 0 else rows[0].spent) + ExpenseCategoriesSpent(rows[1..])
  }

  lemma {:induction false} TotalSpentOfExpenseRows(rows: seq<SummaryRow>)
    ensures TotalSpent(ExpenseRows(rows)) == ExpenseCategoriesSpent(rows)
    decreases |rows|
  {
    if |rows| != 0 {
      var head := if rows[0].isBudget then [] else [rows[0]];
      TotalSpentAppend(head, ExpenseRows(rows[1..]));
      TotalSpentOfExpenseRows(rows[1..]);
      assert TotalSpent(head) == (if rows[0].isBudget then 0 else rows[0].spent) by {
        if !rows[0].isBudget {
          assert head[1..] == [];
        }
      }
    }
  }

  /** The overview card for a month's summary rows: the budget is the first budget row's limit, or
      0 when the month has no budget row; the spent is the sum over the expense categories alone;
      and what remains is the budget less the spent. */
  lemma OverviewOfSummary(rows: seq<SummaryRow>)
    ensures
      var o := OverviewOf(BudgetCard(rows), ExpenseRows(rows));
      && ((forall i :: 0 <= i < |rows| ==> !rows[i].isBudget) ==> o.totalBudget == 0)
      && (forall k :: 0 <= k < |rows| && rows[k].isBudget && (forall j :: 0 <= j < k ==> !rows[j].isBudget) ==>
            o.totalBudget == rows[k].limit)
      && o.totalSpent == ExpenseCategoriesSpent(rows)
      && o.remaining == o.totalBudget - o.totalSpent
  {
    TotalSpentOfExpenseRows(rows);
    var b := BudgetCard(rows);
    forall k | 0 <= k < |rows| && rows[k].isBudget && (forall j :: 0 <= j < k ==> !rows[j].isBudget)
      ensures b.limit == rows[k].limit
    {
      var k' :| 0 <= k' < |rows| && rows[k'].isBudget
        && (forall j :: 0 <= j < k' ==> !rows[j].isBudget)
        && b == BudgetView(Some(rows[k'].id), rows[k'].limit, rows[k'].spent);
      assert k == k';
    }
  }

  /** Wherever a budget row sits among the month's rows, the overview's total spent is the same as
      without it. */
  lemma OverviewSpentIgnoresBudgetRow(card: BudgetView, before: seq<SummaryRow>, budget: SummaryRow, after: seq<SummaryRow>)
    requires budget.isBudget
    ensures OverviewOf(card, ExpenseRows(before + [budget] + after)).totalSpent
         == OverviewOf(card, ExpenseRows(before + after)).totalSpent
  {
    OverviewIgnoresBudgetRow(before, budget, after);
  }

  /** What the dashboard sends. */
  datatype Request =
    | PostCategory(body: CategoryBody)
    | PutCategory(id: ObjectId, update: UpdateBody)
    | PostExpense(expense: ExpenseBody)

  /** What a form handler does: nothing, an alert, or one request. */
  datatype Action = Idle | Alert(text: string) | Send(request: Request)

  /** A `prompt` answer: `null` when the user cancels. */
  datatype Prompt<+T> = Cancelled | Entered(value: T)

  /** `parseFloat(x) || 0`, with `None` standing for `NaN`. */
  function OrZero(x: Option<int>): int {
    x.GetOr(0)
  }

  predicate HasText(s: string) {
    exists i :: 0 <= i < |s| && !JsText.IsSpace(s[i])
  }

  /** `setBudget`: update the month's budget row when the summary has one, else create it. */
  function SetBudget(rows: seq<SummaryRow>, month: int, year: int, input: Option<int>): (r: Request)
    ensures r.PutCategory? <==> exists i :: 0 <= i < |rows| && rows[i].isBudget
    ensures r.PostCategory? <==> forall i :: 0 <= i < |rows| ==> !rows[i].isBudget
    ensures r.PutCategory? ==>
      && r.update == UpdateBody(Some(OrZero(input)), Some(BudgetName))
      && exists k :: 0 <= k < |rows| && rows[k].isBudget && rows[k].id == r.id
           && forall j :: 0 <= j < k ==> !rows[j].isBudget
    ensures r.PostCategory? ==>
      r.body == CategoryBody(Some(BudgetName), Some(OrZero(input)), Some(month), Some(year), Some(true))
  {
    var amount := OrZero(input);
    match FirstBudget(rows)
    case Some(b) => PutCategory(b.id, UpdateBody(Some(amount), Some(BudgetName)))
    case None => PostCategory(CategoryBody(Some(BudgetName), Some(amount), Some(month), Some(year), Some(true)))
  }

  /** `handleCategorySubmit`: send only a name with text in it and a positive limit. */
  function CategorySubmit(month: int, year: int, name: string, limit: Option<int>): (a: Action)
    ensures a.Send? <==> HasText(name) && limit.Some? && limit.value > 0
    ensures !a.Send? ==> a == Idle
    ensures a.Send? ==> a.request == PostCategory(
      CategoryBody(Some(JsText.Trim(name)), limit, Some(month), Some(year), None))
  {
    var trimmed := JsText.Trim(name);
    var amount := OrZero(limit);
    if trimmed != "" && amount > 0 then
      Send(PostCategory(CategoryBody(Some(trimmed), Some(amount), Some(month), Some(year), None)))
    else Idle
  }

  /** `editCategory`: either prompt cancelled sends nothing; an empty name, a `NaN` limit or a
      negative limit raises an alert and sends nothing; a zero limit is accepted. */
  function EditCategory(id: ObjectId, name: Prompt<string>, limit: Prompt<Option<int>>): (a: Action)
    ensures name.Cancelled? || limit.Cancelled? ==> a == Idle
    ensures a.Send? <==>
      name.Entered? && limit.Entered? && HasText(name.value) && limit.value.Some? && limit.value.value >= 0
    ensures a.Alert? ==> a.text == InvalidEdit
    ensures name.Entered? && limit.Entered? && !a.Send? ==> a == Alert(InvalidEdit)
    ensures a.Send? ==>
      a.request == PutCategory(id, UpdateBody(limit.value, Some(JsText.Trim(name.value))))
  {
    match name
    case Cancelled => Idle
    case Entered(n) =>
      match limit
      case Cancelled => Idle
      case Entered(l) =>
        if JsText.Trim(n) == "" || l.None? || l.value < 0 then Alert(InvalidEdit)
        else Send(PutCategory(id, UpdateBody(Some(l.value), Some(JsText.Trim(n)))))
  }

  /** `handleExpenseSubmit`: send only with a category chosen and a positive amount. */
  function ExpenseSubmit(date: Day, category: string, amount: Option<int>, note: string): (a: Action)
    ensures a.Send? <==> category != "" && amount.Some? && amount.value > 0
    ensures !a.Send? ==> a == Idle
    ensures a.Send? ==> a.request == PostExpense(ExpenseBody(date, category, amount.value, Some(note)))
  {
    if category != "" && amount.Some? && amount.value > 0 then
      Send(PostExpense(ExpenseBody(date, category, amount.value, Some(note))))
    else Idle
  }

  /** An expense the form sends is stored by POST /expenses, and GET /summary for the month of its
      date then counts its amount in the spent of the row carrying its label. The month and year
      queried are the date's own; a year from 0 to 99 is left out, since JavaScript's `Date` reads
      it as 1900 to 1999 and the window then lies in another century. */
  lemma SubmittedExpenseCounted(s: Store, date: Day, category: string, amount: Option<int>, note: string,
                                month: Option<string>, year: Option<string>, i: nat)
    requires ExpenseSubmit(date, category, amount, note).Send?
    requires JsText.ParseInt(month) == Some(date.month) && JsText.ParseInt(year) == Some(date.year)
    requires !(0 <= date.year <= 99)
    requires i < |GetSummary(s, month, year).body.value|
    requires GetSummary(s, month, year).body.value[i].name == category
    ensures
      var out := CreateExpense(s, ExpenseSubmit(date, category, amount, note).request.expense);
      var before := GetSummary(s, month, year).body.value;
      var after := GetSummary(out.store, month, year);
      && out.reply.status == 200
      && Expense(s.nextId, date, category, amount.value, Some(note)) in out.store.expenses
      && after.status == 200 && |after.body.value| == |before|
      && after.body.value[i].id == before[i].id
      && after.body.value[i].spent == before[i].spent + amount.value
  {
    var body := ExpenseSubmit(date, category, amount, note).request.expense;
    var out := CreateExpense(s, body);
    assert out.store.expenses[|s.expenses|] == Expense(s.nextId, date, category, amount.value, Some(note));
    var w := DateRange(month, year).value;
    assert w.start == Date(date.year, date.month, 1);
    assert InWindow(date, w);
    ExpenseAddedToSummary(s, body, month, year, i);
  }

  /** With no budget row for the month, "set budget" posts a budget category, and the server,
      which never sets `userId`, refuses it with 400 and leaves the store as it was. */
  lemma SetBudgetWithoutBudgetRowRejected(s: Store, rows: seq<SummaryRow>, month: int, year: int, input: Option<int>)
    requires forall i :: 0 <= i < |rows| ==> !rows[i].isBudget
    ensures
      var out := CreateCategory(s, SetBudget(rows, month, year, input).body);
      out.reply.status == 400 && out.store == s
  {
  }

  /** PUT /categories/:id for a stored category: never 404; a success returns the category with the
      body applied; in a well-formed store a success changes that category and no other, and an
      update that leaves the index key as it is always succeeds. */
  lemma UpdateStoredCategory(s: Store, p: nat, body: UpdateBody)
    requires p < |s.categories|
    ensures
      var out := UpdateCategory(s, Cast(s.categories[p].id), body);
      && out.reply.status != 404
      && (out.reply.status == 200 ==>
            exists q :: 0 <= q < |s.categories| && s.categories[q].id == s.categories[p].id
              && out.reply.body.value == Apply(s.categories[q], body))
      && (WellFormed(s) && out.reply.status == 200 ==> out.reply.body.value == Apply(s.categories[p], body))
      && (WellFormed(s) && Key(Apply(s.categories[p], body)) == Key(s.categories[p]) ==> out.reply.status == 200)
  {
    var out := UpdateCategory(s, Cast(s.categories[p].id), body);
    assert s.categories[p] in s.categories;
    if WellFormed(s) && out.reply.status == 200 {
      var q :| 0 <= q < |s.categories| && s.categories[q].id == s.categories[p].id
        && out.reply.body.value == Apply(s.categories[q], body);
      assert CategoryIds(s.categories)[p] == CategoryIds(s.categories)[q];
    }
    if WellFormed(s) && out.reply.status == 400 {
      var q, j :| 0 <= q < |s.categories| && 0 <= j < |s.categories| && j != q
        && s.categories[q].id == s.categories[p].id && Key(s.categories[j]) == Key(Apply(s.categories[q], body));
      assert CategoryIds(s.categories)[p] == CategoryIds(s.categories)[q];
    }
  }

  /** When the first budget row stands for the stored category `p`, "set budget" updates that very
      category: the server always finds it, a successful update carries the new limit and the fixed
      name, in a well-formed store the category changed is a budget category, and when the row is
      already named "Total Budget" the update succeeds. */
  lemma SetBudgetUpdatesBudgetRow(s: Store, rows: seq<SummaryRow>, p: nat, month: int, year: int, input: Option<int>)
    requires FirstBudget(rows).Some? && p < |s.categories|
    requires s.categories[p].id == FirstBudget(rows).value.id && s.categories[p].isBudget
    requires s.categories[p].name == FirstBudget(rows).value.name
    ensures
      var req := SetBudget(rows, month, year, input);
      var out := UpdateCategory(s, Cast(req.id), req.update);
      && out.reply.status != 404
      && (out.reply.status == 200 ==>
            out.reply.body.value.limit == OrZero(input) && out.reply.body.value.name == BudgetName)
      && (WellFormed(s) && out.reply.status == 200 ==> out.reply.body.value.isBudget)
      && (WellFormed(s) && FirstBudget(rows).value.name == BudgetName ==> out.reply.status == 200)
  {
    UpdateStoredCategory(s, p, SetBudget(rows, month, year, input).update);
  }

  /** The same for the rows GET /summary returned: their first budget row is always found. */
  lemma SetBudgetAfterSummary(s: Store, month: Option<string>, year: Option<string>, m: int, y: int, input: Option<int>)
    requires GetSummary(s, month, year).body.Data?
    requires FirstBudget(GetSummary(s, month, year).body.value).Some?
    ensures
      var req := SetBudget(GetSummary(s, month, year).body.value, m, y, input);
      UpdateCategory(s, Cast(req.id), req.update).reply.status != 404
  {
    var rows := GetSummary(s, month, year).body.value;
    var k :| 0 <= k < |rows| && rows[k] == FirstBudget(rows).value && rows[k].isBudget
      && forall j :: 0 <= j < k ==> !rows[j].isBudget;
    var p := RowIsStored(s, month, year, k);
    SetBudgetUpdatesBudgetRow(s, rows, p, m, y, input);
  }
}

=== FILE: http.dfy ===
/** The shape of an HTTP reply as the handlers build it. */
module Http {

  /** A JSON body: a payload, a `{ message }` object, or an `{ error }` object. */
  datatype Body<+T> = Data(value: T) | Message(text: string) | Error(text: string)

  /** A status code with its body. */
  datatype Reply<+T> = Reply(status: int, body: Body<T>)
}

=== FILE: jstext.dfy ===
/** The pieces of JavaScript's string handling the program relies on: `parseInt` with no radix,
    `String.prototype.trim`, and the decimal rendering a number gets inside a template literal. */
module JsText {
  import opened Wrappers

  /** White space and line terminators as `trim` and `parseInt` skip them (the Latin-1 and
      line-separator subset; the other Unicode space separators are not listed). */
  predicate IsSpace(c: char) {
    c == ' ' || c == '\t' || c == '\n' || c == '\r' || c == '\U{B}' || c == '\U{C}'
    || c == '\U{A0}' || c == '\U{2028}' || c == '\U{2029}' || c == '\U{FEFF}'
  }

  predicate IsDecimal(c: char) {
    '0' <= c <= '9'
  }

  /** Is `c` a digit in base `radix` (10 or 16)? */
  predicate IsDigitIn(c: char, radix: nat) {
    if radix == 16 then IsDecimal(c) || 'a' <= c <= 'f' || 'A' <= c <= 'F'
    else IsDecimal(c)
  }

  function DigitValue(c: char): nat {
    if IsDecimal(c) then (c - '0') as nat
    else if 'a' <= c <= 'f' then (c - 'a') as nat + 10
    else if 'A' <= c <= 'F' then (c - 'A') as nat + 10
    else 0
  }

  /** The first position at or after `i` that does not hold white space. */
  function SpacesEnd(s: string, i: nat): (j: nat)
    requires i <= |s|
    ensures i <= j <= |s|
    ensures forall k :: i <= k < j ==> IsSpace(s[k])
    ensures j < |s| ==> !IsSpace(s[j])
    decreases |s| - i
  {
    if i < |s| && IsSpace(s[i]) then SpacesEnd(s, i + 1) else i
  }

  /** The text with leading white space removed. */
  function TrimStart(s: string): (r: string)
    ensures |r| <= |s| && r == s[|s| - |r|..]
    ensures |r| > 0 ==> !IsSpace(r[0])
    ensures forall i :: 0 <= i < |s| - |r| ==> IsSpace(s[i])
  {
    s[SpacesEnd(s, 0)..]
  }

  /** The text with trailing white space removed. */
  function TrimEnd(s: string): (r: string)
    ensures |r| <= |s| && r == s[..|r|]
    ensures |r| > 0 ==> !IsSpace(r[|r| - 1])
    ensures forall i :: |r| <= i < |s| ==> IsSpace(s[i])
  {
    if |s| > 0 && IsSpace(s[|s| - 1]) then TrimEnd(s[..|s| - 1]) else s
  }

  /** `s.trim()`: the text between the first and the last non-space character. Together with the
      contract of `TrimStart`, the last two clauses say that `r` is a slice of `s` with only white
      space on either side of it. */
  function Trim(s: string): (r: string)
    ensures |r| == 0 <==> forall i :: 0 <= i < |s| ==> IsSpace(s[i])
    ensures |r| > 0 ==> !IsSpace(r[0]) && !IsSpace(r[|r| - 1])
    ensures |r| <= |TrimStart(s)| && r == TrimStart(s)[..|r|]
    ensures forall i :: |r| <= i < |TrimStart(s)| ==> IsSpace(TrimStart(s)[i])
  {
    AllSpaceTrimsToEmpty(s);
    TrimEnd(TrimStart(s))
  }

  /** Trimming both ends leaves nothing exactly when the text is all white space. */
  lemma AllSpaceTrimsToEmpty(s: string)
    ensures |TrimEnd(TrimStart(s))| == 0 <==> forall i :: 0 <= i < |s| ==> IsSpace(s[i])
  {
    var t := TrimStart(s);
    if |t| > 0 {
      assert !IsSpace(t[0]);
      assert s[|s| - |t|] == t[0];
    }
  }

  /** The first position at or after `i` that does not hold a base-`radix` digit. */
  function DigitsEnd(s: string, i: nat, radix: nat): (j: nat)
    requires i <= |s|
    ensures i <= j <= |s|
    ensures forall k :: i <= k < j ==> IsDigitIn(s[k], radix)
    ensures j < |s| ==> !IsDigitIn(s[j], radix)
    decreases |s| - i
  {
    if i < |s| && IsDigitIn(s[i], radix) then DigitsEnd(s, i + 1, radix) else i
  }

  /** The number a digit string denotes in base `radix`, most significant digit first. */
  function ValueOf(s: string, radix: nat): nat {
    if |s| == 0 then 0 else ValueOf(s[..|s| - 1], radix) * radix + DigitValue(s[|s| - 1])
  }

  /** The position after the one optional sign that may stand at `a`. */
  function SignEnd(s: string, a: nat): (b: nat)
    requires a <= |s|
    ensures b == a || (a < |s| && b == a + 1 && (s[a] == '-' || s[a] == '+'))
    ensures a < |s| && (s[a] == '-' || s[a] == '+') ==> b == a + 1
  {
    if a < |s| && (s[a] == '-' || s[a] == '+') then a + 1 else a
  }

  /** A `0x` or `0X` prefix at position `b`. */
  predicate HexAt(s: string, b: nat) {
    b + 2 <= |s| && s[b] == '0' && (s[b + 1] == 'x' || s[b + 1] == 'X')
  }

  /** The longest run of base-`radix` digits from position `c`, as a number; `NaN` when there is
      none. */
  function ReadDigits(s: string, c: nat, radix: nat): (r: Option<nat>)
    requires c <= |s|
    ensures r.None? <==> c == |s| || !IsDigitIn(s[c], radix)
  {
    var e := DigitsEnd(s, c, radix);
    if e == c then None else Some(ValueOf(s[c..e], radix))
  }

  /** `parseInt(s)` on a string: skip leading white space, take one optional sign, switch to
      base 16 after a `0x`/`0X` prefix, then read the longest run of digits; no digits is `NaN`. */
  function ParseIntText(s: string): (r: Option<int>)
    ensures (forall i :: 0 <= i < |s| ==> !IsDecimal(s[i])) ==> r.None?
  {
    var a := SpacesEnd(s, 0);
    var b := SignEnd(s, a);
    var hex := HexAt(s, b);
    var c := if hex then b + 2 else b;
    var digits := ReadDigits(s, c, if hex then 16 else 10);
    if digits.None? then None
    else
      assert hex ==> IsDecimal(s[b]);
      assert !hex ==> IsDecimal(s[c]);
      Some(if b > a && s[a] == '-' then -(digits.value as int) else digits.value)
  }

  /** What JavaScript turns `undefined` into before parsing it. */
  const Undefined := "undefined"

  /** The text "undefined" has no digit, so `parseInt(undefined)` is `NaN`. */
  lemma UndefinedIsNaN()
    ensures ParseIntText(Undefined) == None
  {
    assert forall i :: 0 <= i < |Undefined| ==> !IsDecimal(Undefined[i]);
  }

  /** `parseInt(x)` where `x` may be `undefined`. An absent value would be parsed as the text
      `Undefined`, which is `NaN` by `UndefinedIsNaN`; the function answers `NaN` directly. */
  function ParseInt(x: Option<string>): (r: Option<int>)
    ensures x.None? ==> r.None?
    ensures x.Some? && (forall i :: 0 <= i < |x.value| ==> !IsDecimal(x.value[i])) ==> r.None?
  {
    match x
    case None => None
    case Some(text) => ParseIntText(text)
  }

  function DigitChar(d: nat): (c: char)
    requires d < 10
    ensures IsDecimal(c) && DigitValue(c) == d
  {
    '0' + d as char
  }

  /** The decimal digits of a natural number, without leading zeros. */
  function ShowNat(n: nat): (r: string)
    ensures |r| > 0
    ensures forall i :: 0 <= i < |r| ==> IsDecimal(r[i])
    ensures r[0] == '0' ==> n == 0 && |r| == 1
  {
    if n < 10 then [DigitChar(n)] else ShowNat(n / 10) + [DigitChar(n % 10)]
  }

  /** How a number is written into a URL by `${n}`: a minus sign for negatives, then the digits. */
  function Show(n: int): (r: string)
    ensures |r| > 0 && !IsSpace(r[0])
    ensures forall i :: 0 <= i < |r| ==> IsDecimal(r[i]) || (i == 0 && r[i] == '-')
  {
    if n < 0 then "-" + ShowNat(-n) else ShowNat(n)
  }

  lemma {:induction false} ValueOfShowNat(n: nat)
    ensures ValueOf(ShowNat(n), 10) == n
    decreases n
  {
    if n >= 10 {
      var s := ShowNat(n);
      assert s[..|s| - 1] == ShowNat(n / 10);
      ValueOfShowNat(n / 10);
    }
  }

  /** A run of digits from `c` to `e`, followed by a non-digit or the end, ends at `e`. */
  lemma DigitsEndAt(s: string, c: nat, e: nat, radix: nat)
    requires c <= e <= |s|
    requires forall k :: c <= k < e ==> IsDigitIn(s[k], radix)
    requires e == |s| || !IsDigitIn(s[e], radix)
    ensures DigitsEnd(s, c, radix) == e
  {
  }

  /** The digits of a natural number at position `c`, followed by a non-digit or the end, read
      back as that number. */
  lemma ReadShowNat(s: string, c: nat, m: nat)
    requires c + |ShowNat(m)| <= |s| && s[c..c + |ShowNat(m)|] == ShowNat(m)
    requires c + |ShowNat(m)| == |s| || !IsDecimal(s[c + |ShowNat(m)|])
    ensures ReadDigits(s, c, 10) == Some(m)
  {
    var e := c + |ShowNat(m)|;
    forall k | c <= k < e ensures IsDecimal(s[k]) {
      assert s[k] == ShowNat(m)[k - c];
    }
    DigitsEndAt(s, c, e, 10);
    ValueOfShowNat(m);
  }

  /** Where the parts of a rendered number, followed by `t`, sit: an optional minus sign at 0,
      then the digits of its magnitude, then `t`. */
  lemma ShowLayout(n: int, t: string)
    ensures
      var s, digits, b := Show(n) + t, ShowNat(if n < 0 then -n else n), if n < 0 then 1 else 0;
      && |s| == b + |digits| + |t|
      && s[b..b + |digits|] == digits
      && s[b + |digits|..] == t
      && (n < 0 <==> s[0] == '-')
      && !IsSpace(s[0]) && s[0] != '+'
  {
    var s, digits := Show(n) + t, ShowNat(if n < 0 then -n else n);
    assert s[0] == Show(n)[0];
    if n < 0 {
      assert s == "-" + digits + t;
    } else {
      assert s == digits + t;
      assert IsDecimal(s[0]);
    }
  }

  /** Reading back a rendered number, followed by text that does not start with a digit or with
      the `x` that would turn a leading `0` into a hexadecimal prefix, gives the number back. */
  lemma ParseShowRoundTrip(n: int, t: string)
    requires |t| == 0 || (!IsDecimal(t[0]) && t[0] != 'x' && t[0] != 'X')
    ensures ParseIntText(Show(n) + t) == Some(n)
  {
    var s, m := Show(n) + t, if n < 0 then -n else n;
    var digits, b := ShowNat(m), if n < 0 then 1 else 0;
    ShowLayout(n, t);
    assert SpacesEnd(s, 0) == 0;
    assert SignEnd(s, 0) == b;
    assert |s| > b + |digits| ==> s[b + |digits|] == t[0];
    assert !HexAt(s, b);
    ReadShowNat(s, b, m);
  }

  /** The case the program relies on: a number written into a query string parses back to itself. */
  lemma ParseShow(n: int)
    ensures ParseInt(Some(Show(n))) == Some(n)
  {
    ParseShowRoundTrip(n, "");
    assert Show(n) + "" == Show(n);
  }

  /** A leading `0x` or `0X` makes `parseInt` read the digits after it in base 16, up to the first
      character that is not a hexadecimal digit. */
  lemma HexPrefixRead(x: char, digits: string, t: string)
    requires x == 'x' || x == 'X'
    requires |digits| > 0 && forall k :: 0 <= k < |digits| ==> IsDigitIn(digits[k], 16)
    requires |t| == 0 || !IsDigitIn(t[0], 16)
    ensures ParseIntText(['0', x] + digits + t) == Some(ValueOf(digits, 16))
  {
    var s := ['0', x] + digits + t;
    var e := 2 + |digits|;
    assert SpacesEnd(s, 0) == 0 && SignEnd(s, 0) == 0 && HexAt(s, 0);
    forall k | 2 <= k < e ensures IsDigitIn(s[k], 16) {
      assert s[k] == digits[k - 2];
    }
    assert e < |s| ==> s[e] == t[0];
    DigitsEndAt(s, 2, e, 16);
    assert s[2..e] == digits;
  }
}

=== FILE: ledger.dfy ===
/** The request handlers of the backend's category and expense endpoints, as functions from a
    store and a request to a reply and a new store. No handler filters by or sets `userId`. */
module Ledger {
  import opened Wrappers
  import opened Mongo
  import opened Http
  import opened Calendar
  import opened CategorySchema

  /** The reply texts of the handlers, and the shortened Mongoose errors. */
  const CategoryExists := "Category already exists for this month/year."
  const ValidationFailed := "Category validation failed"
  const CategoryAdded := "Category added"
  const CategoryNotFoundInDb := "Category not found in DB."
  const DuplicateKeyError := "E11000 duplicate key error"
  const CastFailed := "Cast to ObjectId failed"
  const CategoryNotFound := "Category not found."
  const BudgetReset := "Total Budget reset to 0."
  const CategoryDeleted := "Category deleted"
  const ExpenseAdded := "Expense added"
  const ExpenseDeleted := "Expense deleted"

  /** A stored expense. `category` is a free-text label, matched against category names. */
  datatype Expense = Expense(id: ObjectId, date: Day, category: string, amount: int, note: Option<string>)

  /** The two collections, and the counter that hands out fresh identifiers. */
  datatype Store = Store(categories: seq<Category>, expenses: seq<Expense>, nextId: ObjectId)

  /** A handler's reply together with the store it leaves behind. */
  datatype Outcome<+T> = Outcome(reply: Reply<T>, store: Store)

  function CategoryIds(cs: seq<Category>): (ids: seq<ObjectId>)
    ensures |ids| == |cs| && forall i :: 0 <= i < |cs| ==> ids[i] == cs[i].id
  {
    seq(|cs|, i requires 0 <= i < |cs| => cs[i].id)
  }

  function ExpenseIds(es: seq<Expense>): (ids: seq<ObjectId>)
    ensures |ids| == |es| && forall i :: 0 <= i < |es| ==> ids[i] == es[i].id
  {
    seq(|es|, i requires 0 <= i < |es| => es[i].id)
  }

  predicate Distinct(ids: seq<ObjectId>) {
    forall i, j :: 0 <= i < j < |ids| ==> ids[i] != ids[j]
  }

  predicate AllBelow(ids: seq<ObjectId>, bound: ObjectId) {
    forall i :: 0 <= i < |ids| ==> ids[i] < bound
  }

  /** The store's invariant: identifiers are unique and older than the counter, and the
      categories respect the unique index. */
  predicate WellFormed(s: Store) {
    && UniqueIndex(s.categories)
    && Distinct(CategoryIds(s.categories)) && AllBelow(CategoryIds(s.categories), s.nextId)
    && Distinct(ExpenseIds(s.expenses)) && AllBelow(ExpenseIds(s.expenses), s.nextId)
  }

  /** The sequence without its element at position `k`, the others in their order. */
  function RemoveAt<T>(xs: seq<T>, k: nat): (r: seq<T>)
    requires k < |xs|
    ensures |r| == |xs| - 1
    ensures forall i :: 0 <= i < |r| ==> r[i] == xs[if i < k then i else i + 1]
    ensures forall x :: x in r ==> x in xs
    ensures forall i :: 0 <= i < |xs| && i != k ==> xs[i] in r
  {
    var r := xs[..k] + xs[k + 1..];
    assert forall i :: 0 <= i < |r| ==> r[i] == xs[if i < k then i else i + 1];
    assert forall i :: 0 <= i < |xs| && i != k ==> xs[i] in r by {
      forall i | 0 <= i < |xs| && i != k ensures xs[i] in r {
        if i < k { assert r[i] == xs[i]; } else { assert r[i - 1] == xs[i]; }
      }
    }
    r
  }

  /** `findById`: the position of the first document with identifier `id`. */
  function IndexOf(ids: seq<ObjectId>, id: ObjectId): (r: Option<nat>)
    ensures r.None? <==> id !in ids
    ensures r.Some? ==> r.value < |ids| && ids[r.value] == id
    ensures r.Some? ==> forall k :: 0 <= k < r.value ==> ids[k] != id
  {
    if |ids| == 0 then None
    else if ids[0] == id then Some(0)
    else
      match IndexOf(ids[1..], id)
      case None => None
      case Some(k) => Some(k + 1)
  }

  /** Removing one element keeps identifiers distinct and below any bound they were below. */
  lemma RemoveAtKeepsIds(ids: seq<ObjectId>, k: nat, bound: ObjectId)
    requires k < |ids|
    ensures Distinct(ids) ==> Distinct(RemoveAt(ids, k))
    ensures AllBelow(ids, bound) ==> AllBelow(RemoveAt(ids, k), bound)
  {
    var r := RemoveAt(ids, k);
    if Distinct(ids) {
      forall i, j | 0 <= i < j < |r| ensures r[i] != r[j] {
        var i', j' := if i < k then i else i + 1, if j < k then j else j + 1;
        assert r[i] == ids[i'] && r[j] == ids[j'] && i' < j';
      }
    }
  }

  /** Removing a category keeps the unique index. */
  lemma RemoveAtKeepsUniqueIndex(cs: seq<Category>, k: nat)
    requires k < |cs|
    ensures UniqueIndex(cs) ==> UniqueIndex(RemoveAt(cs, k))
  {
    var r := RemoveAt(cs, k);
    if UniqueIndex(cs) {
      forall i, j | 0 <= i < j < |r| ensures Key(r[i]) != Key(r[j]) {
        var i', j' := if i < k then i else i + 1, if j < k then j else j + 1;
        assert r[i] == cs[i'] && r[j] == cs[j'] && i' < j';
      }
    }
  }

  /** Removing a category keeps the store well formed. */
  lemma RemoveCategoryKeepsWellFormed(s: Store, k: nat)
    requires k < |s.categories|
    ensures WellFormed(s) ==> WellFormed(s.(categories := RemoveAt(s.categories, k)))
  {
    assert CategoryIds(RemoveAt(s.categories, k)) == RemoveAt(CategoryIds(s.categories), k);
    RemoveAtKeepsIds(CategoryIds(s.categories), k, s.nextId);
    RemoveAtKeepsUniqueIndex(s.categories, k);
  }

  /** Removing an expense keeps the store well formed. */
  lemma RemoveExpenseKeepsWellFormed(s: Store, k: nat)
    requires k < |s.expenses|
    ensures WellFormed(s) ==> WellFormed(s.(expenses := RemoveAt(s.expenses, k)))
  {
    assert ExpenseIds(RemoveAt(s.expenses, k)) == RemoveAt(ExpenseIds(s.expenses), k);
    RemoveAtKeepsIds(ExpenseIds(s.expenses), k, s.nextId);
  }

  /** Replacing a category by one with the same identifier and a key no other category has keeps
      the store well formed. */
  lemma ReplaceCategoryKeepsWellFormed(s: Store, k: nat, u: Category)
    requires k < |s.categories| && u.id == s.categories[k].id
    ensures WellFormed(s) && (forall j :: 0 <= j < |s.categories| && j != k ==> Key(s.categories[j]) != Key(u)) ==>
      WellFormed(s.(categories := s.categories[k := u]))
  {
    var cs := s.categories[k := u];
    assert CategoryIds(cs) == CategoryIds(s.categories);
  }

  /** In a well-formed store, position `k` is the only one holding its identifier. */
  lemma OnlyPositionWithId(s: Store, k: nat)
    requires k < |s.categories|
    ensures WellFormed(s) ==>
      forall j :: 0 <= j < |s.categories| && s.categories[j].id == s.categories[k].id ==> j == k
  {
    var ids := CategoryIds(s.categories);
    if WellFormed(s) {
      forall j | 0 <= j < |s.categories| && s.categories[j].id == s.categories[k].id ensures j == k {
        assert ids[j] == ids[k];
      }
    }
  }

  /** Resetting a category's limit keeps the store well formed: its key does not change. */
  lemma ResetCategoryKeepsWellFormed(s: Store, k: nat)
    requires k < |s.categories|
    ensures WellFormed(s) ==> WellFormed(s.(categories := s.categories[k := s.categories[k].(limit := 0)]))
  {
    var u := s.categories[k].(limit := 0);
    if WellFormed(s) {
      forall j | 0 <= j < |s.categories| && j != k ensures Key(s.categories[j]) != Key(u) {
        assert Key(u) == Key(s.categories[k]);
      }
    }
    ReplaceCategoryKeepsWellFormed(s, k, u);
  }

  /** Among distinct identifiers, the lookup finds each at its own position. */
  lemma FindsOnlyOccurrence(ids: seq<ObjectId>, k: nat)
    requires Distinct(ids) && k < |ids|
    ensures IndexOf(ids, ids[k]) == Some(k)
  {
    assert ids[k] in ids;
  }

  /** `Expense.find({ date: { $gte: start, $lt: end } })`: the expenses dated inside the window,
      in store order. */
  function InWindowOf(es: seq<Expense>, w: Window): (r: seq<Expense>)
    ensures forall e :: e in r <==> e in es && InWindow(e.date, w)
    ensures |r| <= |es|
  {
    if |es| == 0 then []
    else (if InWindow(es[0].date, w) then [es[0]] else []) + InWindowOf(es[1..], w)
  }

  lemma {:induction false} InWindowOfAppend(a: seq<Expense>, b: seq<Expense>, w: Window)
    ensures InWindowOf(a + b, w) == InWindowOf(a, w) + InWindowOf(b, w)
    decreases |a|
  {
    if |a| == 0 {
      assert a + b == b;
    } else {
      assert (a + b)[1..] == a[1..] + b;
      InWindowOfAppend(a[1..], b, w);
    }
  }

  // ----- POST /categories -----

  /** The body of a category creation request; every field may be missing. */
  datatype CategoryBody = CategoryBody(
    name: Option<string>,
    limit: Option<int>,
    month: Option<int>,
    year: Option<int>,
    isBudget: Option<bool>)

  /** JavaScript truthiness of the optional `isBudget` flag. */
  predicate Truthy(flag: Option<bool>) {
    flag == Some(true)
  }

  /** Does `c` answer the duplicate query `findOne({ name, month, year, isBudget: false })`?
      Mongoose drops a key whose value is `undefined` from a filter, so a field missing from the
      request constrains nothing. */
  predicate SameNonBudget(c: Category, body: CategoryBody) {
    && (body.name.None? || body.name == Some(c.name))
    && (body.month.None? || body.month == Some(c.month))
    && (body.year.None? || body.year == Some(c.year))
    && !c.isBudget
  }

  /** The document the handler builds: `isBudget` is the flag or false, and `userId` is never set. */
  function DraftOf(body: CategoryBody): (d: Draft)
    ensures d.name == body.name && d.limit == body.limit
    ensures d.month == body.month && d.year == body.year
    ensures d.isBudget == Some(Truthy(body.isBudget))
    ensures d.userId.None? && !Admissible(d)
  {
    Draft(body.name, body.limit, Some(Truthy(body.isBudget)), body.month, body.year, None)
  }

  /** `save()` of a new category into the store under the next fresh identifier. */
  function Persist(s: Store, d: Draft): (r: Result<Store, SaveError>)
    ensures r.Success? <==>
      Admissible(d) && forall k :: 0 <= k < |s.categories| ==> Key(s.categories[k]) != Key(Validate(d, s.nextId).value)
    ensures r.Success? ==>
      && r.value.categories == s.categories + [Validate(d, s.nextId).value]
      && r.value.expenses == s.expenses
      && r.value.nextId == s.nextId + 1
    ensures r.Success? && WellFormed(s) ==> WellFormed(r.value)
  {
    match Insert(s.categories, d, s.nextId)
    case Failure(e) => Failure(e)
    case Success(cs) =>
      var s' := Store(cs, s.expenses, s.nextId + 1);
      assert cs == s.categories + [cs[|s.categories|]];
      Success(s')
  }

  /** POST /categories: unless `isBudget` is truthy, answer 409 when a non-budget category with the
      same name, month and year exists; otherwise build the document and save it. Because the
      document never carries the `userId` the schema requires, the save always fails validation:
      the handler never adds a category. */
  function CreateCategory(s: Store, body: CategoryBody): (r: Outcome<()>)
    ensures r.store == s
    ensures r.reply.status == 409 <==>
      !Truthy(body.isBudget) && exists k :: 0 <= k < |s.categories| && SameNonBudget(s.categories[k], body)
    ensures r.reply.status == 409 ==> r.reply.body == Message(CategoryExists)
    ensures r.reply.status != 409 ==>
      r.reply == Reply(400, Error(ValidationFailed)) && UserIdPath in FailingPaths(DraftOf(body))
  {
    if !Truthy(body.isBudget) && exists k :: 0 <= k < |s.categories| && SameNonBudget(s.categories[k], body) then
      Outcome(Reply(409, Message(CategoryExists)), s)
    else
      match Persist(s, DraftOf(body))
      case Success(s') => Outcome(Reply(200, Message(CategoryAdded)), s')
      case Failure(_) => Outcome(Reply(400, Error(ValidationFailed)), s)
  }

  // ----- PUT /categories/:id -----

  /** The update body: a missing key is dropped from the update and leaves that path unchanged. */
  datatype UpdateBody = UpdateBody(limit: Option<int>, name: Option<string>)

  /** The category after the update: only `name` and `limit` can change. */
  function Apply(c: Category, body: UpdateBody): (u: Category)
    ensures u.id == c.id && u.isBudget == c.isBudget && u.userId == c.userId
    ensures u.month == c.month && u.year == c.year
    ensures u.name == (if body.name.Some? then body.name.value else c.name)
    ensures u.limit == (if body.limit.Some? then body.limit.value else c.limit)
  {
    c.(name := body.name.GetOr(c.name), limit := body.limit.GetOr(c.limit))
  }

  /** Would `u`, stored at position `k`, share its index key with another category? */
  predicate ClashesElsewhere(cs: seq<Category>, k: nat, u: Category) {
    exists j :: 0 <= j < |cs| && j != k && Key(cs[j]) == Key(u)
  }

  /** PUT /categories/:id: `findByIdAndUpdate` with `{ limit, name }`, returning the new document.
      It runs no schema validators, but the unique index still refuses a clashing key. */
  function UpdateCategory(s: Store, arg: IdArg, body: UpdateBody): (r: Outcome<Category>)
    ensures r.reply.status == 200 || r.reply.status == 400 || r.reply.status == 404
    ensures r.reply.status != 200 ==> r.store == s
    ensures arg.Malformed? ==> r.reply.status == 400
    ensures r.reply.status == 404 <==> arg.Cast? && forall c :: c in s.categories ==> c.id != arg.id
    ensures r.reply.status == 404 ==> r.reply.body == Message(CategoryNotFoundInDb)
    ensures arg.Cast? && r.reply.status == 400 ==>
      exists k, j :: 0 <= k < |s.categories| && 0 <= j < |s.categories| && j != k
        && s.categories[k].id == arg.id && Key(s.categories[j]) == Key(Apply(s.categories[k], body))
    ensures r.reply.status == 200 ==>
      arg.Cast? && r.reply.body.Data? &&
      exists k :: 0 <= k < |s.categories| && s.categories[k].id == arg.id
        && r.reply.body.value == Apply(s.categories[k], body)
    ensures r.reply.status == 200 ==>
      && arg.Cast? && r.reply.body.Data?
      && r.reply.body.value.id == arg.id
      && r.reply.body.value in r.store.categories
      && r.store.expenses == s.expenses && r.store.nextId == s.nextId
      && |r.store.categories| == |s.categories|
      && forall j :: 0 <= j < |s.categories| ==>
           r.store.categories[j] == s.categories[j]
           || (s.categories[j].id == arg.id && r.store.categories[j] == Apply(s.categories[j], body))
    ensures r.reply.status == 200 && WellFormed(s) ==>
      forall j :: 0 <= j < |s.categories| && s.categories[j].id == arg.id ==>
        r.store.categories[j] == Apply(s.categories[j], body)
    ensures WellFormed(s) ==> WellFormed(r.store)
  {
    match arg
    case Malformed => Outcome(Reply(400, Error(CastFailed)), s)
    case Cast(id) =>
      match IndexOf(CategoryIds(s.categories), id)
      case None => Outcome(Reply(404, Message(CategoryNotFoundInDb)), s)
      case Some(k) =>
        var u := Apply(s.categories[k], body);
        if ClashesElsewhere(s.categories, k, u) then
          Outcome(Reply(400, Error(DuplicateKeyError)), s)
        else
          ReplaceCategoryKeepsWellFormed(s, k, u);
          OnlyPositionWithId(s, k);
          assert s.categories[k := u][k] == u;
          Outcome(Reply(200, Data(u)), s.(categories := s.categories[k := u]))
  }

  // ----- DELETE /categories/:id -----

  /** DELETE /categories/:id: a budget category is kept with its limit reset to 0; any other
      category is removed. */
  function DeleteCategory(s: Store, arg: IdArg): (r: Outcome<()>)
    ensures r.reply.status == 200 || r.reply.status == 400 || r.reply.status == 404
    ensures r.reply.status != 200 ==> r.store == s
    ensures arg.Malformed? ==> r.reply.status == 400
    ensures r.reply.status == 404 <==> arg.Cast? && forall c :: c in s.categories ==> c.id != arg.id
    ensures r.reply.status == 404 ==> r.reply.body == Message(CategoryNotFound)
    ensures r.reply.status == 200 ==>
      && arg.Cast? && r.store.expenses == s.expenses && r.store.nextId == s.nextId
      && exists k :: 0 <= k < |s.categories| && s.categories[k].id == arg.id &&
           if s.categories[k].isBudget then
             && r.reply.body == Message(BudgetReset)
             && r.store.categories == s.categories[k := s.categories[k].(limit := 0)]
           else
             && r.reply.body == Message(CategoryDeleted)
             && r.store.categories == RemoveAt(s.categories, k)
    ensures WellFormed(s) ==> WellFormed(r.store)
  {
    match arg
    case Malformed => Outcome(Reply(400, Error(CastFailed)), s)
    case Cast(id) =>
      match IndexOf(CategoryIds(s.categories), id)
      case None => Outcome(Reply(404, Message(CategoryNotFound)), s)
      case Some(k) =>
        var c := s.categories[k];
        if c.isBudget then
          ResetCategoryKeepsWellFormed(s, k);
          Outcome(Reply(200, Message(BudgetReset)), s.(categories := s.categories[k := c.(limit := 0)]))
        else
          RemoveCategoryKeepsWellFormed(s, k);
          Outcome(Reply(200, Message(CategoryDeleted)), s.(categories := RemoveAt(s.categories, k)))
  }

  /** In a well-formed store, deleting the budget category at position `k` by its identifier
      resets the limit of exactly that one. */
  lemma ResetBudgetEffect(s: Store, k: nat)
    requires WellFormed(s) && k < |s.categories| && s.categories[k].isBudget
    ensures
      var r := DeleteCategory(s, Cast(s.categories[k].id));
      r.reply.status == 200 && r.store.categories == s.categories[k := s.categories[k].(limit := 0)]
  {
    FindsOnlyOccurrence(CategoryIds(s.categories), k);
  }

  /** In a well-formed store, deleting the ordinary category at position `k` by its identifier
      removes exactly that one, and no category with its identifier remains. */
  lemma DeleteCategoryEffect(s: Store, k: nat)
    requires WellFormed(s) && k < |s.categories| && !s.categories[k].isBudget
    ensures
      var c := s.categories[k];
      var r := DeleteCategory(s, Cast(c.id));
      && r.reply.status == 200
      && r.store.categories == RemoveAt(s.categories, k)
      && forall x :: x in r.store.categories ==> x.id != c.id
  {
    var c := s.categories[k];
    var ids := CategoryIds(s.categories);
    FindsOnlyOccurrence(ids, k);
    var cs' := DeleteCategory(s, Cast(c.id)).store.categories;
    forall x | x in cs' ensures x.id != c.id {
      var p :| 0 <= p < |cs'| && cs'[p] == x;
      if p < k { assert ids[p] == x.id; } else { assert ids[p + 1] == x.id; }
    }
  }

  // ----- POST /expenses, DELETE /expenses/:id -----

  datatype ExpenseBody = ExpenseBody(date: Day, category: string, amount: int, note: Option<string>)

  /** POST /expenses: store the expense under a fresh identifier. The label is not checked
      against any category. */
  function CreateExpense(s: Store, body: ExpenseBody): (r: Outcome<()>)
    ensures r.reply == Reply(200, Message(ExpenseAdded))
    ensures r.store.categories == s.categories
    ensures r.store.expenses ==
      s.expenses + [Expense(s.nextId, body.date, body.category, body.amount, body.note)]
    ensures r.store.nextId > s.nextId
    ensures WellFormed(s) ==> WellFormed(r.store)
  {
    var e := Expense(s.nextId, body.date, body.category, body.amount, body.note);
    var es := s.expenses + [e];
    assert ExpenseIds(es) == ExpenseIds(s.expenses) + [s.nextId];
    Outcome(Reply(200, Message(ExpenseAdded)), Store(s.categories, es, s.nextId + 1))
  }

  /** DELETE /expenses/:id: `findByIdAndDelete`, answering 200 whether or not anything was found. */
  function DeleteExpense(s: Store, arg: IdArg): (r: Outcome<()>)
    ensures arg.Malformed? ==> r == Outcome(Reply(400, Error(CastFailed)), s)
    ensures arg.Cast? ==> r.reply == Reply(200, Message(ExpenseDeleted))
    ensures r.store.categories == s.categories && r.store.nextId == s.nextId
    ensures forall e :: e in r.store.expenses ==> e in s.expenses
    ensures arg.Cast? ==> forall e :: e in s.expenses && e.id != arg.id ==> e in r.store.expenses
    ensures arg.Cast? && WellFormed(s) ==> forall e :: e in r.store.expenses ==> e.id != arg.id
    ensures arg.Cast? && (forall e :: e in s.expenses ==> e.id != arg.id) ==> r.store == s
    ensures WellFormed(s) ==> WellFormed(r.store)
  {
    match arg
    case Malformed => Outcome(Reply(400, Error(CastFailed)), s)
    case Cast(id) =>
      match IndexOf(ExpenseIds(s.expenses), id)
      case None => Outcome(Reply(200, Message(ExpenseDeleted)), s)
      case Some(k) =>
        RemoveExpenseKeepsWellFormed(s, k);
        Outcome(Reply(200, Message(ExpenseDeleted)), s.(expenses := RemoveAt(s.expenses, k)))
  }
}

=== FILE: listing.dfy ===
/** GET /expenses: the month's expenses, newest first (`.sort({ date: -1 })`). */
module Listing {
  import opened Wrappers
  import opened Http
  import opened Calendar
  import opened Ledger
  import Summary
  import JsText

  /** No expense is dated before one that comes after it. */
  predicate NewestFirst(es: seq<Expense>) {
    forall i, j :: 0 <= i < j < |es| ==> !Before(es[i].date, es[j].date)
  }

  /** Keeping the head of a newest-first list in front of the rest after `e` joined the rest. */
  lemma HeadStaysNewest(e: Expense, es: seq<Expense>, rest: seq<Expense>)
    requires NewestFirst(es) && |es| > 0 && Before(e.date, es[0].date)
    requires NewestFirst(rest) && multiset(rest) == multiset(es[1..]) + multiset{e}
    ensures NewestFirst([es[0]] + rest)
  {
    var r := [es[0]] + rest;
    forall j | 0 <= j < |rest| ensures !Before(es[0].date, rest[j].date) {
      var x := rest[j];
      assert x in multiset(rest);
      if x != e {
        assert x in multiset(es[1..]);
        var k :| 0 <= k < |es| - 1 && es[1..][k] == x;
        assert es[k + 1] == x;
      }
    }
    forall i, j | 0 <= i < j < |r| ensures !Before(r[i].date, r[j].date) {
      if i == 0 {
        assert r[j] == rest[j - 1];
      } else {
        assert r[i] == rest[i - 1] && r[j] == rest[j - 1];
      }
    }
  }

  /** Place `e` in front of the first expense that is not newer than it. */
  function InsertNewestFirst(e: Expense, es: seq<Expense>): (r: seq<Expense>)
    requires NewestFirst(es)
    ensures NewestFirst(r)
    ensures multiset(r) == multiset(es) + multiset{e}
  {
    if |es| == 0 || !Before(e.date, es[0].date) then
      [e] + es
    else
      var rest := InsertNewestFirst(e, es[1..]);
      HeadStaysNewest(e, es, rest);
      assert es == [es[0]] + es[1..];
      [es[0]] + rest
  }

  /** The expenses ordered by date, newest first; equal dates may come in any order. */
  function SortNewestFirst(es: seq<Expense>): (r: seq<Expense>)
    ensures NewestFirst(r)
    ensures multiset(r) == multiset(es)
  {
    if |es| == 0 then []
    else
      assert es == [es[0]] + es[1..];
      InsertNewestFirst(es[0], SortNewestFirst(es[1..]))
  }

  /** GET /expenses?month&year: the expenses dated in the month, newest first; a query that does not
      parse fails before the store is read. */
  function ListExpenses(s: Store, month: Option<string>, year: Option<string>): (r: Reply<seq<Expense>>)
    ensures r.status == 200 || r.status == 400
    ensures r.status == 400 <==> JsText.ParseInt(month).None? || JsText.ParseInt(year).None?
    ensures r.status == 400 ==> r == Reply(400, Error(InvalidQuery))
    ensures r.status == 200 ==>
      && r.body.Data? && NewestFirst(r.body.value)
      && multiset(r.body.value) == multiset(InWindowOf(s.expenses, DateRange(month, year).value))
      && forall e :: e in r.body.value <==> e in s.expenses && InWindow(e.date, DateRange(month, year).value)
  {
    match DateRange(month, year)
    case Failure(msg) => Reply(400, Error(msg))
    case Success(w) =>
      var sorted := SortNewestFirst(InWindowOf(s.expenses, w));
      assert forall e :: e in sorted <==> e in InWindowOf(s.expenses, w) by {
        forall e ensures e in sorted <==> e in InWindowOf(s.expenses, w) {
          assert e in sorted <==> e in multiset(sorted);
        }
      }
      Reply(200, Data(sorted))
  }

  /** The two month views agree: a summary row's spent is the total of the listed expenses that
      carry the row's name, whatever order the listing puts them in. */
  lemma ListingAgreesWithSummary(s: Store, month: Option<string>, year: Option<string>, i: nat)
    requires Summary.GetSummary(s, month, year).status == 200
    requires i < |Summary.GetSummary(s, month, year).body.value|
    ensures
      var row := Summary.GetSummary(s, month, year).body.value[i];
      var listed := ListExpenses(s, month, year);
      listed.status == 200 && row.spent == Summary.Total(Summary.Labelled(listed.body.value, row.name))
  {
    var w := DateRange(month, year).value;
    var row := Summary.GetSummary(s, month, year).body.value[i];
    var listed := ListExpenses(s, month, year).body.value;
    Summary.SpentPermutation(InWindowOf(s.expenses, w), listed, row.name);
  }
}

=== FILE: mongo.dfy ===
/** What the model needs of the document store's identifiers. */
module Mongo {

  /** A document identifier; the store hands out fresh ones from a counter. */
  type ObjectId = nat

  /** A path parameter such as `:id` after the driver has tried to cast it to an identifier.
      A string that is not a well-formed identifier makes the query throw a cast error. */
  datatype IdArg = Cast(id: ObjectId) | Malformed
}

=== FILE: schema.dfy ===
/** The Category document schema: required paths, defaults, the month bounds, and the unique
    index on (name, month, year, userId). */
module CategorySchema {
  import opened Wrappers
  import opened Mongo

  /** A stored category. Every stored document has passed validation, so every path is present. */
  datatype Category = Category(
    id: ObjectId,
    name: string,
    limit: int,
    isBudget: bool,
    month: int,
    year: int,
    userId: ObjectId)

  /** A document about to be saved: a path the caller did not set is `None`. */
  datatype Draft = Draft(
    name: Option<string>,
    limit: Option<int>,
    isBudget: Option<bool>,
    month: Option<int>,
    year: Option<int>,
    userId: Option<ObjectId>)

  /** What validation accepts: `name` present and non-empty (a required string rejects ""),
      `month` present and within 0..11, `year` and `userId` present. `limit` and `isBudget` have
      defaults, so their absence is never an error. */
  predicate Admissible(d: Draft) {
    && d.name.Some? && d.name.value != ""
    && d.month.Some? && 0 <= d.month.value <= 11
    && d.year.Some?
    && d.userId.Some?
  }

  /** The schema's paths, as a validation error names them. */
  datatype Path = NamePath | LimitPath | IsBudgetPath | MonthPath | YearPath | UserIdPath

  /** The paths validation reports, in schema order. */
  function FailingPaths(d: Draft): (paths: seq<Path>)
    ensures NamePath in paths <==> d.name.None? || d.name.value == ""
    ensures MonthPath in paths <==> d.month.None? || !(0 <= d.month.value <= 11)
    ensures YearPath in paths <==> d.year.None?
    ensures UserIdPath in paths <==> d.userId.None?
    ensures LimitPath !in paths && IsBudgetPath !in paths
    ensures paths == [] <==> Admissible(d)
  {
    var front := PathIf(d.name.None? || d.name.value == "", NamePath)
      + PathIf(d.month.None? || !(0 <= d.month.value <= 11), MonthPath);
    var back := PathIf(d.year.None?, YearPath) + PathIf(d.userId.None?, UserIdPath);
    assert |front + back| == 0 <==> |front| == 0 && |back| == 0;
    front + back
  }

  /** The path, reported when `failed`. */
  function PathIf(failed: bool, path: Path): (r: seq<Path>)
    ensures forall p :: p in r <==> failed && p == path
  {
    if failed then [path] else []
  }

  /** Mongoose document construction and validation: apply the defaults (`limit` 0, `isBudget`
      false), then accept the draft or report its failing paths. */
  function Validate(d: Draft, id: ObjectId): (r: Result<Category, seq<Path>>)
    ensures r.Success? <==> Admissible(d)
    ensures r.Failure? ==> |r.error| > 0
    ensures r.Success? ==>
      && r.value.id == id
      && Some(r.value.name) == d.name
      && Some(r.value.month) == d.month
      && Some(r.value.year) == d.year
      && Some(r.value.userId) == d.userId
      && (d.limit.Some? ==> r.value.limit == d.limit.value)
      && (d.limit.None? ==> r.value.limit == 0)
      && (r.value.isBudget <==> d.isBudget == Some(true))
  {
    var paths := FailingPaths(d);
    if paths != [] then Failure(paths)
    else
      Success(Category(id, d.name.value, d.limit.GetOr(0), d.isBudget.GetOr(false),
                       d.month.value, d.year.value, d.userId.value))
  }

  /** The unique index's key. */
  datatype IndexKey = IndexKey(name: string, month: int, year: int, userId: ObjectId)

  function Key(c: Category): IndexKey {
    IndexKey(c.name, c.month, c.year, c.userId)
  }

  /** No two stored categories share a key, whatever their `isBudget`. */
  predicate UniqueIndex(cs: seq<Category>) {
    forall i, j :: 0 <= i < j < |cs| ==> Key(cs[i]) != Key(cs[j])
  }

  /** Why `save` can fail: validation, or a duplicate key (MongoDB's E11000 error). */
  datatype SaveError = Invalid(paths: seq<Path>) | DuplicateKey

  /** `save()` of a new document into the collection `cs` under the fresh identifier `id`. */
  function Insert(cs: seq<Category>, d: Draft, id: ObjectId): (r: Result<seq<Category>, SaveError>)
    ensures !Admissible(d) ==> r.Failure? && r.error.Invalid?
    ensures Admissible(d) ==>
      var c := Validate(d, id).value;
      (r.Success? <==> forall k :: 0 <= k < |cs| ==> Key(cs[k]) != Key(c))
    ensures r.Success? ==> |r.value| == |cs| + 1 && r.value[..|cs|] == cs
    ensures r.Success? ==> r.value[|cs|] == Validate(d, id).value
    ensures r.Success? && UniqueIndex(cs) ==> UniqueIndex(r.value)
  {
    match Validate(d, id)
    case Failure(paths) => Failure(Invalid(paths))
    case Success(c) =>
      if exists k :: 0 <= k < |cs| && Key(cs[k]) == Key(c) then Failure(DuplicateKey)
      else Success(cs + [c])
  }

  /** A second budget row for the same user, month and year violates the index, even though
      budget rows skip the handler's own duplicate check. */
  lemma SecondBudgetRowRejected(cs: seq<Category>, k: nat, d: Draft, id: ObjectId)
    requires k < |cs| && cs[k].isBudget
    requires Admissible(d) && d.isBudget == Some(true)
    requires d.name == Some(cs[k].name) && d.month == Some(cs[k].month)
    requires d.year == Some(cs[k].year) && d.userId == Some(cs[k].userId)
    ensures Insert(cs, d, id) == Failure(DuplicateKey)
  {
    assert Key(cs[k]) == Key(Validate(d, id).value);
  }
}

=== FILE: summary.dfy ===
/** GET /summary: one row per category of the requested month, with what was spent against it
    during that month and what remains of its limit. */
module Summary {
  import opened Wrappers
  import opened Mongo
  import opened Http
  import opened Calendar
  import opened CategorySchema
  import opened Ledger
  import JsText

  datatype SummaryRow = SummaryRow(
    id: ObjectId,
    name: string,
    limit: int,
    isBudget: bool,
    spent: int,
    remaining: int)

  /** `Category.find({ month, year })`: the categories of one month, in store order. */
  function ForMonth(cs: seq<Category>, month: int, year: int): (r: seq<Category>)
    ensures forall c :: c in r <==> c in cs && c.month == month && c.year == year
    ensures |r| <= |cs|
  {
    if |cs| == 0 then []
    else (if cs[0].month == month && cs[0].year == year then [cs[0]] else []) + ForMonth(cs[1..], month, year)
  }

  /** The month filter keeps store order: filtering a concatenation concatenates the filtered parts. */
  lemma {:induction false} ForMonthAppend(a: seq<Category>, b: seq<Category>, month: int, year: int)
    ensures ForMonth(a + b, month, year) == ForMonth(a, month, year) + ForMonth(b, month, year)
    decreases |a|
  {
    if |a| == 0 {
      assert a + b == b;
    } else {
      assert (a + b)[1..] == a[1..] + b;
      ForMonthAppend(a[1..], b, month, year);
    }
  }

  /** `.filter(exp => exp.category === cat.name)`: exact, case-sensitive label match. */
  function Labelled(es: seq<Expense>, name: string): (r: seq<Expense>)
    ensures forall e :: e in r <==> e in es && e.category == name
    ensures |r| <= |es|
  {
    if |es| == 0 then []
    else (if es[0].category == name then [es[0]] else []) + Labelled(es[1..], name)
  }

  /** `.reduce((sum, e) => sum + e.amount, 0)`. */
  function Total(es: seq<Expense>): int {
    if |es| == 0 then 0 else es[0].amount + Total(es[1..])
  }

  lemma {:induction false} LabelledAppend(a: seq<Expense>, b: seq<Expense>, name: string)
    ensures Labelled(a + b, name) == Labelled(a, name) + Labelled(b, name)
    decreases |a|
  {
    if |a| == 0 {
      assert a + b == b;
    } else {
      assert (a + b)[1..] == a[1..] + b;
      LabelledAppend(a[1..], b, name);
    }
  }

  lemma {:induction false} TotalAppend(a: seq<Expense>, b: seq<Expense>)
    ensures Total(a + b) == Total(a) + Total(b)
    decreases |a|
  {
    if |a| == 0 {
      assert a + b == b;
    } else {
      assert (a + b)[1..] == a[1..] + b;
      TotalAppend(a[1..], b);
    }
  }

  /** What was spent against the label `name`, given the expenses fetched for the month. */
  function Spent(fetched: seq<Expense>, name: string): int {
    Total(Labelled(fetched, name))
  }

  function RowOf(c: Category, fetched: seq<Expense>): SummaryRow {
    var spent := Spent(fetched, c.name);
    SummaryRow(c.id, c.name, c.limit, c.isBudget, spent, c.limit - spent)
  }

  /** `categories.map(...)`: one row per category, in the same order, carrying the category's own
      fields, the total of the fetched expenses under its label, and what is left of its limit. */
  function Rows(cats: seq<Category>, fetched: seq<Expense>): (rows: seq<SummaryRow>)
    ensures |rows| == |cats|
    ensures forall i :: 0 <= i < |cats| ==>
      && rows[i].id == cats[i].id && rows[i].name == cats[i].name
      && rows[i].limit == cats[i].limit && rows[i].isBudget == cats[i].isBudget
      && rows[i].spent == Spent(fetched, cats[i].name)
      && rows[i].remaining == rows[i].limit - rows[i].spent
  {
    seq(|cats|, i requires 0 <= i < |cats| => RowOf(cats[i], fetched))
  }

  /** GET /summary?month&year. A query that does not parse fails before either collection is read,
      so the reply is then the same whatever the store holds. */
  function GetSummary(s: Store, month: Option<string>, year: Option<string>): (r: Reply<seq<SummaryRow>>)
    ensures r.status == 200 || r.status == 400
    ensures r.status == 400 <==> JsText.ParseInt(month).None? || JsText.ParseInt(year).None?
    ensures r.status == 400 ==> r == Reply(400, Error(InvalidQuery))
    ensures r.status == 200 ==>
      var m, y := JsText.ParseInt(month).value, JsText.ParseInt(year).value;
      var cats := ForMonth(s.categories, m, y);
      && r.body.Data? && |r.body.value| == |cats|
      && forall i :: 0 <= i < |cats| ==>
           var row := r.body.value[i];
           && row.id == cats[i].id && row.name == cats[i].name
           && row.limit == cats[i].limit && row.isBudget == cats[i].isBudget
           && row.spent == Spent(InWindowOf(s.expenses, DateRange(month, year).value), cats[i].name)
           && row.remaining == row.limit - row.spent
  {
    match DateRange(month, year)
    case Failure(msg) => Reply(400, Error(msg))
    case Success(w) =>
      var cats := ForMonth(s.categories, JsText.ParseInt(month).value, JsText.ParseInt(year).value);
      Reply(200, Data(Rows(cats, InWindowOf(s.expenses, w))))
  }

  /** One more expense adds its amount to the spent of exactly the label it carries, and only when
      it is dated inside the window; any other expense contributes nothing. */
  lemma SpentAfterAppend(es: seq<Expense>, e: Expense, w: Window, name: string)
    ensures Spent(InWindowOf(es + [e], w), name) ==
      Spent(InWindowOf(es, w), name) + (if InWindow(e.date, w) && e.category == name then e.amount else 0)
  {
    InWindowOfAppend(es, [e], w);
    var tail := InWindowOf([e], w);
    assert tail == (if InWindow(e.date, w) then [e] else []) by {
      assert [e][1..] == [];
    }
    LabelledAppend(InWindowOf(es, w), tail, name);
    TotalAppend(Labelled(InWindowOf(es, w), name), Labelled(tail, name));
    if InWindow(e.date, w) {
      assert [e][1..] == [];
    }
  }

  /** A category no in-window expense is labelled with has spent 0, so remaining equals its limit. */
  lemma SpentWithoutMatches(es: seq<Expense>, w: Window, name: string)
    requires forall e :: e in es && InWindow(e.date, w) ==> e.category != name
    ensures Spent(InWindowOf(es, w), name) == 0
  {
  }

  /** Spent is additive over concatenation. */
  lemma SpentAppend(a: seq<Expense>, b: seq<Expense>, name: string)
    ensures Spent(a + b, name) == Spent(a, name) + Spent(b, name)
  {
    LabelledAppend(a, b, name);
    TotalAppend(Labelled(a, name), Labelled(b, name));
  }

  /** Taking the expense at position `j` out of the sequence takes its contribution out of spent. */
  lemma SpentWithout(b: seq<Expense>, j: nat, name: string)
    requires j < |b|
    ensures Spent(b, name) == Spent([b[j]], name) + Spent(b[..j] + b[j + 1..], name)
  {
    assert b == b[..j] + [b[j]] + b[j + 1..];
    SpentAppend(b[..j] + [b[j]], b[j + 1..], name);
    SpentAppend(b[..j], [b[j]], name);
    SpentAppend(b[..j], b[j + 1..], name);
  }

  /** A permutation of a non-empty `a` holds `a`'s first element somewhere, and taking it out of both
      leaves two permutations of each other. */
  lemma RemoveMatchingHeads(a: seq<Expense>, b: seq<Expense>) returns (j: nat)
    requires multiset(a) == multiset(b) && 0 < |a|
    ensures j < |b| && b[j] == a[0]
    ensures multiset(a[1..]) == multiset(b[..j] + b[j + 1..])
  {
    var x := a[0];
    assert x in multiset(b);
    j :| 0 <= j < |b| && b[j] == x;
    assert b == b[..j] + [x] + b[j + 1..];
    assert a == [x] + a[1..];
    assert multiset(b) == multiset(b[..j]) + multiset{x} + multiset(b[j + 1..]);
    assert multiset(a[1..]) == multiset(a) - multiset{x};
    assert multiset(b[..j] + b[j + 1..]) == multiset(b) - multiset{x};
  }

  /** The label total depends only on which expenses were fetched, not on their order. */
  lemma {:induction false} SpentPermutation(a: seq<Expense>, b: seq<Expense>, name: string)
    requires multiset(a) == multiset(b)
    ensures Spent(a, name) == Spent(b, name)
    decreases |a|
  {
    if |a| == 0 {
      assert |multiset(b)| == 0;
    } else {
      var j := RemoveMatchingHeads(a, b);
      SpentPermutation(a[1..], b[..j] + b[j + 1..], name);
      SpentAppend([a[0]], a[1..], name);
      assert a == [a[0]] + a[1..];
      SpentWithout(b, j, name);
    }
  }

  /** POST /expenses followed by GET /summary: every row keeps its category, and its spent grows by
      the new amount exactly when the expense is dated in the month and carries the row's name. */
  lemma ExpenseAddedToSummary(s: Store, body: ExpenseBody, month: Option<string>, year: Option<string>, i: nat)
    requires GetSummary(s, month, year).status == 200
    requires i < |GetSummary(s, month, year).body.value|
    ensures
      var before := GetSummary(s, month, year).body.value[i];
      var after := GetSummary(CreateExpense(s, body).store, month, year);
      var w := DateRange(month, year).value;
      && after.status == 200 && |after.body.value| == |GetSummary(s, month, year).body.value|
      && after.body.value[i].id == before.id && after.body.value[i].limit == before.limit
      && after.body.value[i].spent == before.spent
           + (if InWindow(body.date, w) && body.category == before.name then body.amount else 0)
  {
    var s' := CreateExpense(s, body).store;
    var e := Expense(s.nextId, body.date, body.category, body.amount, body.note);
    SpentAfterAppend(s.expenses, e, DateRange(month, year).value, GetSummary(s, month, year).body.value[i].name);
  }

  /** DELETE /categories/:id of an ordinary category followed by GET /summary for any month: the
      category no longer appears. */
  lemma DeletedCategoryLeavesSummary(s: Store, k: nat, month: Option<string>, year: Option<string>)
    requires WellFormed(s) && k < |s.categories| && !s.categories[k].isBudget
    requires JsText.ParseInt(month).Some? && JsText.ParseInt(year).Some?
    ensures
      var after := GetSummary(DeleteCategory(s, Cast(s.categories[k].id)).store, month, year);
      && after.status == 200
      && forall row :: row in after.body.value ==> row.id != s.categories[k].id
  {
    var c := s.categories[k];
    DeleteCategoryEffect(s, k);
    var s' := DeleteCategory(s, Cast(c.id)).store;
    var after := GetSummary(s', month, year);
    forall row | row in after.body.value ensures row.id != c.id {
      var i :| 0 <= i < |after.body.value| && after.body.value[i] == row;
      var p := RowIsStored(s', month, year, i);
      assert s'.categories[p] in s'.categories;
    }
  }

  /** Every summary row stands for a stored category with the same id, name and budget flag. */
  lemma RowIsStored(s: Store, month: Option<string>, year: Option<string>, k: nat) returns (p: nat)
    requires GetSummary(s, month, year).body.Data? && k < |GetSummary(s, month, year).body.value|
    ensures p < |s.categories|
    ensures
      var row := GetSummary(s, month, year).body.value[k];
      s.categories[p].id == row.id && s.categories[p].name == row.name && s.categories[p].isBudget == row.isBudget
  {
    p := StoredPosition(s.categories, JsText.ParseInt(month).value, JsText.ParseInt(year).value, k);
  }

  /** Where the `k`-th category of a month sits in the store. */
  lemma StoredPosition(cs: seq<Category>, month: int, year: int, k: nat) returns (p: nat)
    requires k < |ForMonth(cs, month, year)|
    ensures p < |cs| && cs[p] == ForMonth(cs, month, year)[k]
  {
    assert ForMonth(cs, month, year)[k] in cs;
    p :| 0 <= p < |cs| && cs[p] == ForMonth(cs, month, year)[k];
  }

  /** Where a stored category sits among the categories of its own month. */
  lemma PositionInMonth(cs: seq<Category>, c: Category) returns (i: nat)
    requires c in cs
    ensures i < |ForMonth(cs, c.month, c.year)| && ForMonth(cs, c.month, c.year)[i] == c
  {
    assert c in ForMonth(cs, c.month, c.year);
    i :| 0 <= i < |ForMonth(cs, c.month, c.year)| && ForMonth(cs, c.month, c.year)[i] == c;
  }

  /** Every category of the requested month gets a row of its own in the summary. */
  lemma CategoryHasRow(s: Store, c: Category, month: Option<string>, year: Option<string>)
    requires c in s.categories
    requires JsText.ParseInt(month) == Some(c.month) && JsText.ParseInt(year) == Some(c.year)
    ensures
      var r := GetSummary(s, month, year);
      && r.status == 200
      && exists i :: 0 <= i < |r.body.value| && r.body.value[i].id == c.id && r.body.value[i].name == c.name
           && r.body.value[i].limit == c.limit && r.body.value[i].isBudget == c.isBudget
           && r.body.value[i].remaining == c.limit - r.body.value[i].spent
  {
    var i := PositionInMonth(s.categories, c);
    RowAt(s, month, year, i);
  }

  /** The `i`-th row of a month's summary carries the fields of the month's `i`-th category. */
  lemma RowAt(s: Store, month: Option<string>, year: Option<string>, i: nat)
    requires JsText.ParseInt(month).Some? && JsText.ParseInt(year).Some?
    requires i < |ForMonth(s.categories, JsText.ParseInt(month).value, JsText.ParseInt(year).value)|
    ensures
      var c := ForMonth(s.categories, JsText.ParseInt(month).value, JsText.ParseInt(year).value)[i];
      var r := GetSummary(s, month, year);
      && r.status == 200 && i < |r.body.value|
      && r.body.value[i].id == c.id && r.body.value[i].name == c.name
      && r.body.value[i].limit == c.limit && r.body.value[i].isBudget == c.isBudget
      && r.body.value[i].remaining == c.limit - r.body.value[i].spent
  {
  }

  /** DELETE /categories/:id of a budget category followed by GET /summary for its month: the row is
      still there, with limit 0 and remaining equal to minus what was spent. */
  lemma ResetBudgetStaysInSummary(s: Store, k: nat, month: Option<string>, year: Option<string>)
    requires WellFormed(s) && k < |s.categories| && s.categories[k].isBudget
    requires JsText.ParseInt(month) == Some(s.categories[k].month)
    requires JsText.ParseInt(year) == Some(s.categories[k].year)
    ensures
      var c := s.categories[k];
      var after := GetSummary(DeleteCategory(s, Cast(c.id)).store, month, year);
      && after.status == 200
      && exists i :: 0 <= i < |after.body.value| && after.body.value[i].id == c.id
           && after.body.value[i].limit == 0 && after.body.value[i].remaining == -after.body.value[i].spent
  {
    var c := s.categories[k];
    ResetBudgetEffect(s, k);
    var s' := DeleteCategory(s, Cast(c.id)).store;
    assert s'.categories[k] == c.(limit := 0);
    CategoryHasRow(s', c.(limit := 0), month, year);
  }
}

=== FILE: wrappers.dfy ===
/** Failure-carrying value types shared by every module of the model. */
module Wrappers {

  /** A value that may be absent: a missing request field, JavaScript's `NaN` or `undefined`. */
  datatype Option<+T> = None | Some(value: T) {

    /** The value, or `default` when there is none. */
    function GetOr(default: T): T {
      match this
      case Some(v) => v
      case None => default
    }
  }

  /** The outcome of an operation that either yields a value or fails with an error. */
  datatype Result<+R, +E> = Success(value: R) | Failure(error: E)
}
